=== FILE: README.md ===
# Workshop builders, modelled in Dafny

This project models the two build scripts of the cross-functional learning
design workshop.

- `slides/build-slides.py` draws the 37-slide deck. The model covers:
  - the greedy word wrap `_wrap`;
  - the "n / total" page labels of `slide_number`;
  - the way `build_slides` numbers its builder list against `TOTAL = 37`;
  - the card grids of the role-clarification and redesign-map slides.
- `facilitator/build-miro-board.py` builds the Miro board through the REST API. The model covers:
  - the JSON request bodies of `create_board`, `create_frame`, `create_text`, `create_sticky` and `create_shape`;
  - the layout and fill of the nine zone frames;
  - the sticky-note grids of the landing and critique zones;
  - the fail-fast run of `main`. Every helper calls `raise_for_status` and reads `["id"]` before the next request is sent, so the first refused request ends the run.

The modules follow the scripts:

| module | what it holds |
|---|---|
| `Wrappers` | `Option` and `Result` |
| `Text` | Python's `str.isspace`, `str.split()`, `str.strip()` and `" ".join` on `seq<char>` |
| `Numerals` | `str()` of an integer and a decimal parser for it |
| `Grid` | the `divmod` cell of a card in a grid |
| `Wrap` | `_wrap` and a declarative definition of a greedy wrap |
| `Slides` | page labels, the deck, the card grids |
| `Miro` | the request bodies and the API constants |
| `Zones` | frame layout and fill, zone elements, the sticky grids, the zones of `main` |
| `FailFast` | server answers, fail-fast sending, the run of any list of zones |
| `Build` | `main` itself: the board request followed by the nine zones |

Three things that cannot be computed here are parameters of the model:

- **Width.** The string-width metric of reportlab is `width: string -> real`, and the wrap width is a `real`.
- **The server.** `respond(k)` is the answer to the k-th request of the run: an HTTP status and the `id` key of the JSON body, which is missing, `null` or a string.
- **The environment.** The value of `MIRO_TEAM_ID` is a plain string argument.

Some behaviours of the code are easy to misread. In each case the model follows the code:

- **What counts as refused.** `raise_for_status` raises only for statuses 400 to 599. So a request counts as refused when its status is 4xx/5xx or its JSON has no `id` key. Other non-2xx statuses, such as 3xx, are not refusals.
- **A `null` id.** `r.json()["id"]` returns `None` for `"id": null` without raising, so the run goes on. A `None` board id is printed as "None" in the URLs that follow. A `None` frame id is falsy, so that zone's elements are posted with no parent link and no parent-relative position.
- **What `_wrap` returns.** It does not reproduce its input. `str.split()` drops every run of whitespace, including newlines, and the lines join the words with single spaces.
- **Over-wide words.** A single word wider than the limit still gets a line of its own, so a line can exceed the width. The model proves only that every line of two or more words fits.
- **Slide count.** The heading of the docstring of `build-slides.py` says 35 slides. The inventory under that heading numbers slides 00 to 36, which is 37 entries. The builder list also has 37 entries, and `TOTAL = 37`.

## Model

| member | source | states |
|---|---|---|
| Wrap.WrapIsGreedy | cross-functional-learning-design-workshop/slides/build-slides.py:249-265 | `_wrap` keeps the words of `text.split()` in order and groups them greedily. No line is empty. A line of two or more words fits the width. Every break is forced: the next line's first word would not fit on the line before it. There are never more lines than words. |
| Wrap.GreedyWrapUnique | cross-functional-learning-design-workshop/slides/build-slides.py:249-265 | At most one list of lines is a greedy wrap of a given word list. |
| Wrap.WrapCharacterised | cross-functional-learning-design-workshop/slides/build-slides.py:249-265 | A list of lines is a greedy wrap of the text's words if and only if it is what `_wrap` returns. |
| Wrap.WrapBlank | cross-functional-learning-design-workshop/slides/build-slides.py:252-265 | `_wrap` returns no lines exactly when the text is empty or all whitespace. |
| Text.SplitJoin | cross-functional-learning-design-workshop/slides/build-slides.py:252 | Splitting the single-space join of whitespace-free, non-empty words gives back those words. A wrapped line therefore re-splits into exactly its own words. |
| Text.SplitEmptyIffBlank | cross-functional-learning-design-workshop/slides/build-slides.py:252 | `split()` yields no words exactly when every character is whitespace. |
| Text.StripEmptyIffBlank | cross-functional-learning-design-workshop/facilitator/build-miro-board.py:70-71 | `strip()` leaves the empty string exactly when every character is whitespace. This decides whether a team id is sent. |
| Numerals.ParseNatRenders | cross-functional-learning-design-workshop/slides/build-slides.py:196 | A string parses as the decimal number n if and only if it is `str(n)`, so the rendering of a number can be read back. |
| Numerals.IntToStringParses | cross-functional-learning-design-workshop/facilitator/build-miro-board.py:100 | `str(font_size)` reads back as the font size when it is non-negative, and is not a plain numeral otherwise. |
| Slides.LabelCharacterised | cross-functional-learning-design-workshop/slides/build-slides.py:193-196 | A string is the label printed for slide n of total if and only if it parses as "n / total". |
| Slides.LabelInjective | cross-functional-learning-design-workshop/slides/build-slides.py:193-196 | Different (number, total) pairs print different labels. |
| Slides.Emit | cross-functional-learning-design-workshop/slides/build-slides.py:1234-1236 | Builder k of the list runs k-th, gets page number n + k, and prints the label for that number. |
| Slides.LabelsCountPages | cross-functional-learning-design-workshop/slides/build-slides.py:281 | Every page's label reads "k / number of pages" if and only if the builder list has exactly `TOTAL` entries. |
| Slides.DeckSize | cross-functional-learning-design-workshop/slides/build-slides.py:1194-1232 | The builder list of `build_slides` has `TOTAL` entries. |
| Slides.DeckLabels | cross-functional-learning-design-workshop/slides/build-slides.py:1194-1236 | Every slide of a `TOTAL`-long deck is labelled with its 1-based position out of the deck size. |
| Slides.LastLabel | cross-functional-learning-design-workshop/slides/build-slides.py:193-196 | The label for slide 37 of 37 is the string "37 / 37". |
| Slides.LabelsDistinct | cross-functional-learning-design-workshop/slides/build-slides.py:1234-1236 | No two pages of a deck carry the same label. |
| Grid.DivModUnique | cross-functional-learning-design-workshop/facilitator/build-miro-board.py:161 | Python's `divmod(i, cols)` is the only (row, column) pair with column < cols and row · cols + column = i. |
| Slides.GridLayout | cross-functional-learning-design-workshop/slides/build-slides.py:974-981 | Placing cards by `i // cols` and `i % cols` puts n cards into distinct cells. Every cell lies inside any grid of enough rows. |
| Slides.RedesignLayout | cross-functional-learning-design-workshop/slides/build-slides.py:964-981 | The seven redesign-map sections take seven distinct cells of a two-row, four-wide grid. Sections 1 to 4 fill the first row. |
| Slides.RoleLayout | cross-functional-learning-design-workshop/slides/build-slides.py:773-783 | Rows by `i < 2` and columns by parity give the four role cards the four cells of a 2×2 grid, one each. This agrees with the `divmod` placement. |
| Miro.CreateBoard | cross-functional-learning-design-workshop/facilitator/build-miro-board.py:68-72 | The board goes to `/boards` with the name cut to 60 characters and the fixed description. A `teamId` is sent exactly when `MIRO_TEAM_ID` is not blank, and its value is the stripped variable. |
| Miro.BoardNameCut | cross-functional-learning-design-workshop/facilitator/build-miro-board.py:34 | The 67-character board name is cut to exactly 60 characters. |
| Miro.CreateFrame | cross-functional-learning-design-workshop/facilitator/build-miro-board.py:79-87 | The frame request carries the first 6000 characters of the title (the whole title if shorter), the custom format and freeform type, the position and the size. A fill style is present exactly when the fill colour is truthy, and it is that colour. |
| Miro.CreateText | cross-functional-learning-design-workshop/facilitator/build-miro-board.py:92-107 | Content is the first 65000 characters (all of it if shorter). The font size is sent as its decimal string. Fill colour and opacity 1.0 are present exactly for a truthy fill. The position is parent-relative, with a parent link, exactly for a truthy parent id. |
| Miro.CreateSticky | cross-functional-learning-design-workshop/facilitator/build-miro-board.py:112-124 | The sticky-note body: the first 65000 characters of the content (all of it if shorter), rectangle shape, the fill colour, and a parent link exactly for a truthy parent id. |
| Miro.CreateShape | cross-functional-learning-design-workshop/facilitator/build-miro-board.py:129-141 | The shape body: rectangle, content, size and fill colour, and a parent link exactly for a truthy parent id. |
| Miro.TextParentOnlyLinks | cross-functional-learning-design-workshop/facilitator/build-miro-board.py:93-106 | A parent id adds the `relativeTo` key and the parent link to a text, and changes nothing else. |
| Miro.StickyParentOnlyLinks | cross-functional-learning-design-workshop/facilitator/build-miro-board.py:113-123 | A parent id adds the `relativeTo` key and the parent link to a sticky note, and changes nothing else. |
| Miro.ShapeParentOnlyLinks | cross-functional-learning-design-workshop/facilitator/build-miro-board.py:130-140 | A parent id adds the `relativeTo` key and the parent link to a shape, and changes nothing else. |
| Miro.EmptyParentIsNoParent | cross-functional-learning-design-workshop/facilitator/build-miro-board.py:93-94 | An empty parent id is falsy, so the text request is the same as one without a parent. |
| Miro.TextFillOnlyStyles | cross-functional-learning-design-workshop/facilitator/build-miro-board.py:102-104 | A fill colour on a text adds the two fill keys of its style and nothing else. |
| Zones.ZoneLayout | cross-functional-learning-design-workshop/facilitator/build-miro-board.py:355-356 | Frame centres are 1800 apart. The nine frames mirror each other about the origin, and the middle one sits on it. |
| Zones.FramesApart | cross-functional-learning-design-workshop/facilitator/build-miro-board.py:370 | Any two frames leave at least the 200-unit gap between their edges. |
| Zones.OneDarkZone | cross-functional-learning-design-workshop/facilitator/build-miro-board.py:371-373 | Of the nine zone titles, exactly the break's contains "Break" and gets the dark fill. |
| Zones.ElementRequest | cross-functional-learning-design-workshop/facilitator/build-miro-board.py:92-143 | An element placed in a frame is linked to that frame exactly when the frame id is truthy: not `None` and not empty. It is posted to the endpoint of its kind. |
| Zones.SlotsApart | cross-functional-learning-design-workshop/facilitator/build-miro-board.py:160-163 | Different slots of a `divmod` sticky grid land on different spots, and two slots of one row are at least a pitch apart. |
| Zones.LandingGrid | cross-functional-learning-design-workshop/facilitator/build-miro-board.py:153-163 | The sixteen name slots are "Name" notes inside the frame. Each column has one role colour, so every row holds all four roles. No two slots share a spot or overlap along a row. |
| Zones.CritiqueGrid | cross-functional-learning-design-workshop/facilitator/build-miro-board.py:309-319 | The twelve critique slots are empty notes inside the frame, coloured green, yellow and blue by `i % 3`. No two share a spot or overlap along a row. |
| Zones.MainZones | cross-functional-learning-design-workshop/facilitator/build-miro-board.py:357-367 | `main` lists nine zones, titled in board order. The landing builder is first and the critique builder eighth, and the other seven builders keep their order around them. |
| Zones.MainFrames | cross-functional-learning-design-workshop/facilitator/build-miro-board.py:369-374 | Frame i has zone title i, sits at x = start + 1800·i, y = 0, and is 1600 × 1400. Only frame 5, the break, is dark. |
| FailFast.Outcome | cross-functional-learning-design-workshop/facilitator/build-miro-board.py:73-76 | A helper returns the new id exactly when the status is not 4xx/5xx and the body has an `id` key. The id is `None` for `"id": null`. A 4xx/5xx status raises an HTTP error. |
| FailFast.PostAllFailFast | cross-functional-learning-design-workshop/facilitator/build-miro-board.py:160-163 | Posting a list stops at the first refusal. It sends an initial part of the list, all of it when nothing is refused, and every request before the last one sent was accepted. |
| FailFast.ZoneFailFast | cross-functional-learning-design-workshop/facilitator/build-miro-board.py:369-376 | A refused frame is the zone's only request. Otherwise the zone records (title, id) and sends an initial part of its frame-then-elements plan, all of it when nothing fails. |
| FailFast.ZonesFailFast | cross-functional-learning-design-workshop/facilitator/build-miro-board.py:369-376 | The zone loop stops at the first refusal. A loop that does not stop creates one frame per remaining zone. |
| FailFast.RunFollowsPlan | cross-functional-learning-design-workshop/facilitator/build-miro-board.py:369-376 | The loop's requests are an initial part of the plan (each zone's frame, then its elements under that frame's id), the whole plan when nothing fails. The recorded frames carry the zones' titles in order. The id recorded for frame j is the server's answer to request k + `FrameAt(j)`, the request that created that frame. |
| FailFast.PlanFrameAt | cross-functional-learning-design-workshop/facilitator/build-miro-board.py:369-376 | In the plan, position `FrameAt(j)` holds the frame request of zone i + j. Before it come the frame and elements of each earlier zone. |
| FailFast.BoardFailFast | cross-functional-learning-design-workshop/facilitator/build-miro-board.py:349-377 | The board request goes first. Every request but the last one sent was accepted. The run fails exactly when the last one was refused, and with that refusal. A run that does not fail creates a frame per zone. |
| FailFast.CompleteRun | cross-functional-learning-design-workshop/facilitator/build-miro-board.py:349-377 | With no refusals, the run creates every zone's frame in order and sends the board followed by the whole plan for the recorded ids. Each recorded id is the server's answer to request 1 + `FrameAt(j)`, the request that created frame j. |
| FailFast.StoppedRun | cross-functional-learning-design-workshop/facilitator/build-miro-board.py:349-377 | Once the board is accepted, whatever the server answers, what was sent is an initial part of the board followed by the plan. |
| FailFast.FirstZoneFirst | cross-functional-learning-design-workshop/facilitator/build-miro-board.py:369-376 | When the board and the first frame are accepted, the first frame is recorded under the second answer's id. With no refusals, the first zone's whole plan follows the board. |
| FailFast.BoardRefused | cross-functional-learning-design-workshop/facilitator/build-miro-board.py:352 | A refused board request ends the run at once: no frame, and the board's failure. |
| Build.StepPlan | cross-functional-learning-design-workshop/facilitator/build-miro-board.py:369-376 | Zone i of `main`, once its frame gets an id, sends one request more than it has elements. The first goes to the frames endpoint with title i at x = start + 1800·i. Every later one is linked to the new frame exactly when that id is truthy. |
| Build.MainFailFast | cross-functional-learning-design-workshop/facilitator/build-miro-board.py:349-377 | `main` sends the board first and is fail-fast. Without a failure it creates nine frames. |
| Build.CompleteMainRun | cross-functional-learning-design-workshop/facilitator/build-miro-board.py:349-377 | With no refusals, `main` creates the nine frames titled in zone order and sends the board followed by exactly the plan. Each frame's id is the answer to the request that created it. |
| Build.NullLandingId | cross-functional-learning-design-workshop/facilitator/build-miro-board.py:87-89 | When nothing is refused and the landing frame is answered with `"id": null`, the run does not fail. The frame is recorded with the id `None`, and every landing element is posted with no parent link. |
| Build.LandingFirst | cross-functional-learning-design-workshop/facilitator/build-miro-board.py:352-376 | With no refusals, the board is followed by the landing frame at the leftmost slot, then every landing element placed in that frame. |

## Left out

- **HTTP transport.** Tokens, headers, timeouts and `get_token` are left out; so are JSON as a wire format and the exit codes. Request bodies are records, and the server is the `respond` parameter.
- **Other exceptions.** Connection errors, timeouts and a non-JSON body are left out. A missing `id` key is modelled, as the `MissingId` failure.
- **Ids that are not strings.** JSON ids that are numbers, booleans, arrays or objects are left out. The model covers string ids and `null`.
- `_rate_limit` (line 146): a sleep, with no effect on what is sent.
- The printing of progress lines and of the board URL in `main`: output only.
- **reportlab drawing.** Fonts, colours, coordinates in millimetres and floating point are left out. The string-width metric is the `width` parameter. Card grids are modelled as (row, column) cells, not coordinates.
- **The other zone builders.** The copy of `build_phase1` to `build_phase5`, `build_break_zone` and `build_phase7` is fixed text. It is passed to `main` as the `others` parameter, and only its element sequence matters to the run.
- `participant/build-handout.py` and `slides/build-pptx.py` are not part of this model.
- **Python's `str.isspace`.** It is modelled as the fixed set of Unicode whitespace code points Python uses. The Unicode database itself is not modelled.
- Wrap.WrapIsGreedy: does not bound the width of a one-word line, because the code lets an over-wide word stand alone.

=== FILE: build.dfy ===
/**
 * `main` of build-miro-board.py put together: the board request, then the
 * nine zones in order, each zone's frame at its slot and its builder's
 * elements placed in that frame, stopping at the first refused request.
 */
module Build {
  import opened Wrappers
  import opened Miro
  import opened Zones
  import opened FailFast

  /** The loop step for zone `z` at position `i`: its frame request, then its elements under the new frame. */
  function StepOf(z: Zone, i: nat): (s: ZoneSteps)
    ensures s.title == z.title
  {
    ZoneSteps(z.title, b => ZoneFrame(b, z, i), (b, f) => ElementRequests(b, f, z.elements))
  }

  /** The loop steps of `main`, one per entry of its `zones` list. */
  function MainSteps(others: seq<seq<Element>>): (steps: seq<ZoneSteps>)
    requires |others| == 7
    ensures |steps| == 9
    ensures forall i :: 0 <= i < 9 ==> steps[i] == StepOf(MainZones(others)[i], i)
  {
    var zones := MainZones(others);
    seq(9, i requires 0 <= i < 9 => StepOf(zones[i], i))
  }

  /** `main`: the board named from `MIRO_TEAM_ID`, then the zones. */
  function MainRun(teamEnv: string, others: seq<seq<Element>>, respond: nat -> Response): Trace
    requires |others| == 7
  {
    RunBoard(CreateBoard(teamEnv), MainSteps(others), respond)
  }

  /** What zone `i` of `main` sends under `fid`, in terms of the zone itself. */
  lemma StepRequests(boardId: string, others: seq<seq<Element>>, i: nat, fid: Option<string>)
    requires |others| == 7 && i < 9
    ensures var z := MainZones(others)[i];
      ZonePlan(boardId, MainSteps(others)[i], fid) == [ZoneFrame(boardId, z, i)] + ElementRequests(boardId, fid, z.elements)
  {
  }

  /**
   * Zone `i` of `main`, its frame created under `fid`: first the frame,
   * posted to the frames endpoint with the zone's title at the zone's slot,
   * then one request per element of the zone, each linked to the new frame
   * exactly when `fid` is truthy.
   */
  lemma StepPlan(boardId: string, others: seq<seq<Element>>, i: nat, fid: Option<string>)
    requires |others| == 7 && i < 9
    ensures var z := MainZones(others)[i];
      var plan := ZonePlan(boardId, MainSteps(others)[i], fid);
      && |plan| == 1 + |z.elements|
      && plan[0].path == BoardPath(boardId, "frames")
      && plan[0].body.frame.title == ZoneTitles[i]
      && plan[0].body.frame.position == Position(ZoneX(i), 0, None)
      && (forall j :: 1 <= j < |plan| ==> ParentOf(plan[j]) == (if Truthy(fid) then fid else None))
  {
    StepRequests(boardId, others, i, fid);
    MainFrames(boardId, others, i);
  }

  /**
   * `main` is fail-fast: the board request goes first, every request but
   * the last one sent was accepted, the run stops early exactly when the
   * last one was refused, and a run that does not stop creates nine frames.
   */
  lemma MainFailFast(teamEnv: string, others: seq<seq<Element>>, respond: nat -> Response)
    requires |others| == 7
    ensures var t := MainRun(teamEnv, others, respond);
      && t.sent != [] && t.sent[0] == CreateBoard(teamEnv)
      && (forall j :: 0 <= j < |t.sent| - 1 ==> Accepted(respond(j)))
      && (t.failure.Some? <==> !Accepted(respond(|t.sent| - 1)))
      && (t.failure.None? ==> |t.frames| == 9)
  {
    BoardFailFast(CreateBoard(teamEnv), MainSteps(others), respond);
  }

  /**
   * A run of `main` that the server never refuses creates the nine frames
   * in the order of `zones`, with their titles, and sends the board and
   * then exactly the plan for the frame ids it receives, each id the
   * answer to the request that created its frame.
   */
  lemma CompleteMainRun(teamEnv: string, others: seq<seq<Element>>, respond: nat -> Response)
    requires |others| == 7
    requires forall k :: Accepted(respond(k))
    ensures var t := MainRun(teamEnv, others, respond);
      && t.failure.None?
      && |t.frames| == 9
      && (forall j :: 0 <= j < 9 ==> t.frames[j].0 == ZoneTitles[j])
      && t.sent == [CreateBoard(teamEnv)] + Plan(BoardIdOf(respond(0)), MainSteps(others), 0, FrameIds(t.frames))
      && IdsReceived(FrameIds(t.frames), BoardIdOf(respond(0)), MainSteps(others), 0, 1, respond)
  {
    CompleteRun(CreateBoard(teamEnv), MainSteps(others), respond);
  }

  /**
   * `sent` starts with the board request, then the landing frame at the
   * leftmost slot, then every landing element placed in the frame `fid`.
   */
  ghost predicate LandingSent(teamEnv: string, others: seq<seq<Element>>, boardId: string, fid: Option<string>,
                              sent: seq<Request>)
    requires |others| == 7
  {
    var landing := MainZones(others)[0];
    Prefix([CreateBoard(teamEnv), ZoneFrame(boardId, landing, 0)] + ElementRequests(boardId, fid, landing.elements),
           sent)
  }

  /**
   * Right after the board, a run of `main` that is never refused creates
   * the landing frame at the leftmost slot, then places every landing
   * element in the frame it just created.
   */
  lemma LandingFirst(teamEnv: string, others: seq<seq<Element>>, respond: nat -> Response)
    requires |others| == 7
    requires forall k :: Accepted(respond(k))
    ensures var t := MainRun(teamEnv, others, respond);
      && t.frames != [] && t.frames[0] == (LandingTitle, IdOf(respond(1)))
      && LandingSent(teamEnv, others, BoardIdOf(respond(0)), IdOf(respond(1)), t.sent)
  {
    var boardId := BoardIdOf(respond(0));
    var fid := IdOf(respond(1));
    var t := MainRun(teamEnv, others, respond);
    assert t == RunBoard(CreateBoard(teamEnv), MainSteps(others), respond);
    FirstZoneFirst(CreateBoard(teamEnv), MainSteps(others), respond);
    StepRequests(boardId, others, 0, fid);
    var landing := MainZones(others)[0];
    PrefixShape(CreateBoard(teamEnv), ZoneFrame(boardId, landing, 0), ElementRequests(boardId, fid, landing.elements),
                t.sent);
  }

  lemma PrefixShape(board: Request, frame: Request, rest: seq<Request>, sent: seq<Request>)
    requires Prefix([board] + ([frame] + rest), sent)
    ensures Prefix([board, frame] + rest, sent)
  {
    assert [board] + ([frame] + rest) == [board, frame] + rest;
  }

  /** Requests placed under no frame id, sent after `pre`, carry no parent link. */
  lemma UnlinkedAfter(pre: seq<Request>, sent: seq<Request>, boardId: string, es: seq<Element>)
    requires Prefix(pre + ElementRequests(boardId, None, es), sent)
    ensures |pre| + |es| <= |sent|
    ensures forall j :: |pre| <= j < |pre| + |es| ==> ParentOf(sent[j]) == None
  {
    var rs := ElementRequests(boardId, None, es);
    forall j | |pre| <= j < |pre| + |es|
      ensures ParentOf(sent[j]) == None
    {
      assert sent[j] == (pre + rs)[j] == rs[j - |pre|];
    }
  }

  /**
   * An answer `"id": null` to the landing frame is no failure: the run goes
   * on, records the frame with the id `None`, and posts every landing
   * element with no parent link.
   */
  lemma NullLandingId(teamEnv: string, others: seq<seq<Element>>, respond: nat -> Response)
    requires |others| == 7
    requires forall k :: Accepted(respond(k))
    requires respond(1).id.NullId?
    ensures var t := MainRun(teamEnv, others, respond);
      && t.failure.None?
      && t.frames != [] && t.frames[0] == (LandingTitle, None)
      && 2 + |LandingElements()| <= |t.sent|
      && (forall j :: 2 <= j < 2 + |LandingElements()| ==> ParentOf(t.sent[j]) == None)
  {
    var boardId := BoardIdOf(respond(0));
    assert IdOf(respond(1)) == None;
    MainFailFast(teamEnv, others, respond);
    LandingFirst(teamEnv, others, respond);
    var landing := MainZones(others)[0];
    UnlinkedAfter([CreateBoard(teamEnv), ZoneFrame(boardId, landing, 0)], MainRun(teamEnv, others, respond).sent,
                  boardId, landing.elements);
  }
}

=== FILE: failfast.dfy ===
/**
 * The fail-fast run of build-miro-board.py: the board request, then for
 * each zone in order its frame and the elements of that frame. Every
 * `create_*` helper calls `raise_for_status` and reads the `id` of the
 * answer before anything else is sent, so the first refused request ends
 * the run. The server is a parameter: `respond(k)` is its answer to the
 * k-th request of the run. The run is stated for any requests; which
 * requests `main` sends is fixed in the `Build` module.
 */
module FailFast {
  import opened Wrappers
  import opened Miro

  /** The `id` key of a JSON answer: missing, `null`, or a string. */
  datatype JsonId = NoId | NullId | StringId(s: string)

  /** A server answer: the HTTP status and the `id` key of its JSON body. */
  datatype Response = Response(status: int, id: JsonId)

  /** What `r.json()["id"]` evaluates to when the key is there: `None` for `null`, else the string. */
  function IdOf(r: Response): Option<string> {
    if r.id.StringId? then Some(r.id.s) else None
  }

  /** The board id as the f-strings of the helpers put it into a URL: `None` prints as "None". */
  function BoardIdText(id: Option<string>): string {
    match id
    case None => "None"
    case Some(s) => s
  }

  function BoardIdOf(r: Response): string {
    BoardIdText(IdOf(r))
  }

  /** Why a run stopped: `raise_for_status` raised, or the body had no `id` key (a `KeyError`). */
  datatype Failure = HttpError(status: int) | MissingId

  /** `raise_for_status` raises for client and server errors, 400 to 599. */
  predicate RaisesForStatus(status: int) {
    400 <= status < 600
  }

  predicate Accepted(r: Response) {
    !RaisesForStatus(r.status) && !r.id.NoId?
  }

  /** What a `create_*` helper makes of the answer: the new item's id, or the exception. */
  function Outcome(r: Response): (o: Result<Option<string>, Failure>)
    ensures o.Ok? <==> Accepted(r)
    ensures o.Ok? ==> o.value == IdOf(r)
    ensures o.Ok? && r.id.NullId? ==> o.value == None
    ensures RaisesForStatus(r.status) ==> o == Err(HttpError(r.status))
  {
    if RaisesForStatus(r.status) then Err(HttpError(r.status))
    else if r.id.NoId? then Err(MissingId)
    else Ok(IdOf(r))
  }

  /**
   * What one zone sends, given the board id: its frame request, and the
   * requests of its elements once the frame id is known.
   */
  datatype ZoneSteps = ZoneSteps(
    title: string,
    frame: string -> Request,
    elements: (string, Option<string>) -> seq<Request>)

  /** What a run did: the requests it sent, the frames it created (title, id), why it stopped early. */
  datatype Trace = Trace(sent: seq<Request>, frames: seq<(string, Option<string>)>, failure: Option<Failure>)

  /**
   * The answers to the requests of `t`, the first numbered `k`, agree with
   * fail-fast sending: all but the last one sent were accepted, all of them
   * when `t` did not stop early, and when it did the last one was refused
   * with the failure it reports.
   */
  ghost predicate FailFastFrom(t: Trace, k: nat, respond: nat -> Response) {
    && (forall j :: k <= j < k + |t.sent| - 1 ==> Accepted(respond(j)))
    && (t.failure.None? ==> forall j :: k <= j < k + |t.sent| ==> Accepted(respond(j)))
    && (t.failure.Some? ==> t.sent != [] && Outcome(respond(k + |t.sent| - 1)) == Err(t.failure.value))
  }

  /** `a` followed by `b`. */
  function Then(a: Trace, b: Trace): Trace {
    Trace(a.sent + b.sent, a.frames + b.frames, b.failure)
  }

  /** Fail-fast sending that did not stop, then fail-fast sending, is fail-fast sending. */
  lemma ThenFailFast(a: Trace, b: Trace, k: nat, respond: nat -> Response)
    requires a.failure.None? && FailFastFrom(a, k, respond) && FailFastFrom(b, k + |a.sent|, respond)
    ensures FailFastFrom(Then(a, b), k, respond)
  {
    var t := Then(a, b);
    if t.failure.Some? {
      assert k + |t.sent| - 1 == k + |a.sent| + |b.sent| - 1;
    }
  }

  /**
   * Posts `reqs` in order, the first of them as request number `k`,
   * stopping after the first one that fails.
   */
  function PostAll(reqs: seq<Request>, k: nat, respond: nat -> Response): Trace
    decreases |reqs|
  {
    if reqs == [] then Trace([], [], None)
    else
      match Outcome(respond(k))
      case Err(f) => Trace([reqs[0]], [], Some(f))
      case Ok(_) => Then(Trace([reqs[0]], [], None), PostAll(reqs[1..], k + 1, respond))
  }

  /**
   * Posting is fail-fast, and what was sent is an initial part of `reqs`,
   * all of it when nothing failed.
   */
  lemma {:induction false} PostAllFailFast(reqs: seq<Request>, k: nat, respond: nat -> Response)
    ensures var t := PostAll(reqs, k, respond);
      && FailFastFrom(t, k, respond)
      && Prefix(t.sent, reqs) && t.frames == []
      && (t.failure.None? ==> t.sent == reqs)
    decreases |reqs|
  {
    if reqs != [] && Accepted(respond(k)) {
      var rest := PostAll(reqs[1..], k + 1, respond);
      PostAllFailFast(reqs[1..], k + 1, respond);
      assert reqs == [reqs[0]] + reqs[1..];
      ThenFailFast(Trace([reqs[0]], [], None), rest, k, respond);
      PrefixAfter([reqs[0]], rest.sent, reqs[1..]);
    }
  }

  /** What zone `z` sends when nothing is refused and its frame gets the id `fid`. */
  function ZonePlan(boardId: string, z: ZoneSteps, fid: Option<string>): seq<Request> {
    [z.frame(boardId)] + z.elements(boardId, fid)
  }

  /**
   * One pass of the loop of `main`, its first request numbered `k`: the
   * frame, then the builder's elements under the id the frame received.
   */
  function RunZone(boardId: string, z: ZoneSteps, k: nat, respond: nat -> Response): Trace {
    var frame := z.frame(boardId);
    match Outcome(respond(k))
    case Err(f) => Trace([frame], [], Some(f))
    case Ok(fid) => Then(Trace([frame], [(z.title, fid)], None), PostAll(z.elements(boardId, fid), k + 1, respond))
  }

  /**
   * A zone is fail-fast. A refused frame request is the only request of
   * the zone; once the frame is created under `fid` the zone records it
   * and sends an initial part of its plan, all of it when nothing failed.
   */
  lemma ZoneFailFast(boardId: string, z: ZoneSteps, k: nat, respond: nat -> Response)
    ensures var t := RunZone(boardId, z, k, respond);
      && FailFastFrom(t, k, respond)
      && (Accepted(respond(k)) ==>
            && t.frames == [(z.title, IdOf(respond(k)))]
            && Prefix(t.sent, ZonePlan(boardId, z, IdOf(respond(k))))
            && (t.failure.None? ==> t.sent == ZonePlan(boardId, z, IdOf(respond(k)))))
      && (!Accepted(respond(k)) ==> t.frames == [] && t.sent == [z.frame(boardId)] && t.failure.Some?)
  {
    if Accepted(respond(k)) {
      var fid := IdOf(respond(k));
      var frame := z.frame(boardId);
      var p := PostAll(z.elements(boardId, fid), k + 1, respond);
      PostAllFailFast(z.elements(boardId, fid), k + 1, respond);
      ThenFailFast(Trace([frame], [(z.title, fid)], None), p, k, respond);
      PrefixAfter([frame], p.sent, z.elements(boardId, fid));
    }
  }

  lemma PrefixAfter<T>(a: seq<T>, p: seq<T>, s: seq<T>)
    requires Prefix(p, s)
    ensures Prefix(a + p, a + s)
  {
    assert (a + s)[..|a + p|] == a + s[..|p|];
  }

  /** The loop of `main` from zone `i` on, its first request numbered `k`, stopping at the first failure. */
  function RunZones(boardId: string, zones: seq<ZoneSteps>, i: nat, k: nat, respond: nat -> Response): Trace
    decreases |zones| - i
  {
    if i >= |zones| then Trace([], [], None)
    else
      var z := RunZone(boardId, zones[i], k, respond);
      if z.failure.Some? then z
      else Then(z, RunZones(boardId, zones, i + 1, k + |z.sent|, respond))
  }

  /** One step of the loop: a zone that completes is followed by the rest of the zones. */
  lemma ZoneContinues(boardId: string, zones: seq<ZoneSteps>, i: nat, k: nat, k': nat, respond: nat -> Response)
    requires i < |zones| && RunZone(boardId, zones[i], k, respond).failure.None?
    requires k' == k + |RunZone(boardId, zones[i], k, respond).sent|
    ensures RunZones(boardId, zones, i, k, respond)
      == Then(RunZone(boardId, zones[i], k, respond), RunZones(boardId, zones, i + 1, k', respond))
  {
  }

  /** One step of the loop: a zone that fails ends the run. */
  lemma ZoneStops(boardId: string, zones: seq<ZoneSteps>, i: nat, k: nat, respond: nat -> Response)
    requires i < |zones| && RunZone(boardId, zones[i], k, respond).failure.Some?
    ensures RunZones(boardId, zones, i, k, respond) == RunZone(boardId, zones[i], k, respond)
  {
  }

  /** The loop is fail-fast, and a loop that does not stop early creates a frame for every zone. */
  lemma {:induction false} ZonesFailFast(boardId: string, zones: seq<ZoneSteps>, i: nat, k: nat,
                                         respond: nat -> Response)
    ensures var t := RunZones(boardId, zones, i, k, respond);
      && FailFastFrom(t, k, respond)
      && (t.failure.None? && i <= |zones| ==> |t.frames| == |zones| - i)
    decreases |zones| - i
  {
    if i < |zones| {
      var z := RunZone(boardId, zones[i], k, respond);
      ZoneFailFast(boardId, zones[i], k, respond);
      if z.failure.Some? {
        ZoneStops(boardId, zones, i, k, respond);
      } else {
        var k' := k + |z.sent|;
        ZonesFailFast(boardId, zones, i + 1, k', respond);
        ThenFailFast(z, RunZones(boardId, zones, i + 1, k', respond), k, respond);
        ZoneContinues(boardId, zones, i, k, k', respond);
      }
    }
  }

  /** The whole run: the board first, then the zones. */
  function RunBoard(board: Request, zones: seq<ZoneSteps>, respond: nat -> Response): Trace {
    match Outcome(respond(0))
    case Err(f) => Trace([board], [], Some(f))
    case Ok(boardId) => Then(Trace([board], [], None), RunZones(BoardIdText(boardId), zones, 0, 1, respond))
  }

  /**
   * The run starts with the board request. Every request but the last one
   * sent was accepted; the run stops early exactly when the last one was
   * not, and then with that answer's failure; a run that does not stop
   * early creates a frame for every zone.
   */
  lemma BoardFailFast(board: Request, zones: seq<ZoneSteps>, respond: nat -> Response)
    ensures var t := RunBoard(board, zones, respond);
      && t.sent != [] && t.sent[0] == board
      && (forall j :: 0 <= j < |t.sent| - 1 ==> Accepted(respond(j)))
      && (t.failure.Some? <==> !Accepted(respond(|t.sent| - 1)))
      && (t.failure.Some? ==> Outcome(respond(|t.sent| - 1)) == Err(t.failure.value))
      && (t.failure.None? ==> |t.frames| == |zones|)
  {
    var t := RunBoard(board, zones, respond);
    if Accepted(respond(0)) {
      var z := RunZones(BoardIdOf(respond(0)), zones, 0, 1, respond);
      ZonesFailFast(BoardIdOf(respond(0)), zones, 0, 1, respond);
      ThenFailFast(Trace([board], [], None), z, 0, respond);
    }
    assert FailFastFrom(t, 0, respond);
  }

  /**
   * What a run that is never refused sends from zone `i` on, given the
   * frame ids the server hands out: each zone's frame, then its elements
   * under that frame. With fewer ids than zones the plan ends at the frame
   * request of the first zone without one.
   */
  function Plan(boardId: string, zones: seq<ZoneSteps>, i: nat, fids: seq<Option<string>>): seq<Request>
    decreases |zones| - i
  {
    if i >= |zones| then []
    else if fids == [] then [zones[i].frame(boardId)]
    else ZonePlan(boardId, zones[i], fids[0]) + Plan(boardId, zones, i + 1, fids[1..])
  }

  /** The frame ids of a trace, in creation order. */
  function FrameIds(frames: seq<(string, Option<string>)>): (ids: seq<Option<string>>)
    ensures |ids| == |frames|
    ensures forall j :: 0 <= j < |frames| ==> ids[j] == frames[j].1
  {
    seq(|frames|, j requires 0 <= j < |frames| => frames[j].1)
  }

  /** The frame titles of a trace, in creation order, are those of the zones from `i` on. */
  ghost predicate TitlesFrom(frames: seq<(string, Option<string>)>, zones: seq<ZoneSteps>, i: nat) {
    && i + |frames| <= |zones|
    && forall j :: 0 <= j < |frames| ==> frames[j].0 == zones[i + j].title
  }

  /**
   * What `t` sent is an initial part of the plan from zone `i` on for the
   * frame ids it received, all of it when it did not stop early, and its
   * frames carry the titles of those zones.
   */
  ghost predicate FollowsPlan(t: Trace, boardId: string, zones: seq<ZoneSteps>, i: nat) {
    && Prefix(t.sent, Plan(boardId, zones, i, FrameIds(t.frames)))
    && (t.failure.None? ==> t.sent == Plan(boardId, zones, i, FrameIds(t.frames)))
    && TitlesFrom(t.frames, zones, i)
  }

  /**
   * Where the frame request of zone `i + j` sits in the plan from zone `i`
   * on: after the frames and elements of the `j` zones before it.
   */
  function FrameAt(boardId: string, zones: seq<ZoneSteps>, i: nat, ids: seq<Option<string>>, j: nat): nat
    requires j <= |ids|
    decreases j
  {
    if j == 0 || i >= |zones| then 0
    else |ZonePlan(boardId, zones[i], ids[0])| + FrameAt(boardId, zones, i + 1, ids[1..], j - 1)
  }

  /** The request at `FrameAt(.., j)` of the plan is indeed the frame request of zone `i + j`. */
  lemma {:induction false} PlanFrameAt(boardId: string, zones: seq<ZoneSteps>, i: nat, ids: seq<Option<string>>,
                                       j: nat)
    requires j <= |ids| && i + j < |zones|
    ensures FrameAt(boardId, zones, i, ids, j) < |Plan(boardId, zones, i, ids)|
    ensures Plan(boardId, zones, i, ids)[FrameAt(boardId, zones, i, ids, j)] == zones[i + j].frame(boardId)
    decreases j
  {
    if j > 0 {
      PlanFrameAt(boardId, zones, i + 1, ids[1..], j - 1);
    }
  }

  /**
   * The frame ids of a run from zone `i` on, its first request numbered
   * `k`, are the ids the server gave in answer to the frames' own requests.
   */
  ghost predicate IdsReceived(ids: seq<Option<string>>, boardId: string, zones: seq<ZoneSteps>,
                              i: nat, k: nat, respond: nat -> Response) {
    forall j :: 0 <= j < |ids| ==> ids[j] == IdOf(respond(k + FrameAt(boardId, zones, i, ids, j)))
  }

  /** A run whose first request is refused or whose first frame records its answer's id. */
  lemma IdsStopped(boardId: string, zones: seq<ZoneSteps>, i: nat, k: nat, respond: nat -> Response,
                   ids: seq<Option<string>>)
    requires ids == [] || ids == [IdOf(respond(k))]
    ensures IdsReceived(ids, boardId, zones, i, k, respond)
  {
  }

  /**
   * A completed zone that recorded the answer to its frame request,
   * followed by a run that records the answers to its own, records them all.
   */
  lemma IdsCompleted(boardId: string, zones: seq<ZoneSteps>, i: nat, k: nat, respond: nat -> Response,
                     fid: Option<string>, rest: seq<Option<string>>)
    requires i < |zones| && fid == IdOf(respond(k))
    requires IdsReceived(rest, boardId, zones, i + 1, k + |ZonePlan(boardId, zones[i], fid)|, respond)
    ensures IdsReceived([fid] + rest, boardId, zones, i, k, respond)
  {
    var ids := [fid] + rest;
    assert ids[1..] == rest;
    forall j | 0 < j < |ids|
      ensures ids[j] == IdOf(respond(k + FrameAt(boardId, zones, i, ids, j)))
    {
      assert ids[j] == rest[j - 1];
    }
  }

  /** A zone that stopped the run, at its frame or among its elements, follows the plan. */
  lemma StoppedInZone(boardId: string, zones: seq<ZoneSteps>, i: nat, z: Trace)
    requires i < |zones| && z.failure.Some?
    requires z.frames == [] ==> z.sent == [zones[i].frame(boardId)]
    requires z.frames != [] ==>
      && |z.frames| == 1 && z.frames[0].0 == zones[i].title
      && Prefix(z.sent, ZonePlan(boardId, zones[i], z.frames[0].1))
    ensures FollowsPlan(z, boardId, zones, i)
  {
    if z.frames != [] {
      var fid := z.frames[0].1;
      assert FrameIds(z.frames) == [fid];
      assert Plan(boardId, zones, i, [fid]) == ZonePlan(boardId, zones[i], fid) + Plan(boardId, zones, i + 1, []);
    } else {
      assert FrameIds(z.frames) == [];
    }
  }

  /** A zone that completed, followed by a run of the zones after it that follows the plan, follows the plan. */
  lemma CompletedZone(boardId: string, zones: seq<ZoneSteps>, i: nat, fid: Option<string>, z: Trace, rest: Trace)
    requires i < |zones| && z.failure.None?
    requires z.frames == [(zones[i].title, fid)] && z.sent == ZonePlan(boardId, zones[i], fid)
    requires FollowsPlan(rest, boardId, zones, i + 1)
    ensures FollowsPlan(Then(z, rest), boardId, zones, i)
  {
    var t := Then(z, rest);
    assert t.frames == [(zones[i].title, fid)] + rest.frames;
    assert FrameIds(t.frames) == [fid] + FrameIds(rest.frames);
    assert FrameIds(t.frames)[1..] == FrameIds(rest.frames);
    var plan := Plan(boardId, zones, i + 1, FrameIds(rest.frames));
    assert Plan(boardId, zones, i, FrameIds(t.frames)) == z.sent + plan;
    PrefixAfter(z.sent, rest.sent, plan);
    assert Prefix(t.sent, Plan(boardId, zones, i, FrameIds(t.frames)));
    assert t.failure.None? ==> t.sent == Plan(boardId, zones, i, FrameIds(t.frames));
    TitlesCons(fid, rest.frames, zones, i);
    assert TitlesFrom(t.frames, zones, i);
  }

  lemma TitlesCons(fid: Option<string>, frames: seq<(string, Option<string>)>, zones: seq<ZoneSteps>, i: nat)
    requires i < |zones| && TitlesFrom(frames, zones, i + 1)
    ensures TitlesFrom([(zones[i].title, fid)] + frames, zones, i)
  {
    var all := [(zones[i].title, fid)] + frames;
    forall j | 0 <= j < |all|
      ensures all[j].0 == zones[i + j].title
    {
      if j > 0 {
        assert all[j] == frames[j - 1];
      }
    }
  }

  /**
   * The zones are processed in order, each frame before its elements,
   * the elements built from the frame id just received, and nothing is
   * sent after the first failure: the run follows the plan, and every
   * frame id it records is the answer to that frame's request.
   */
  lemma {:induction false} RunFollowsPlan(boardId: string, zones: seq<ZoneSteps>, i: nat, k: nat,
                                          respond: nat -> Response)
    requires i <= |zones|
    ensures FollowsPlan(RunZones(boardId, zones, i, k, respond), boardId, zones, i)
    ensures IdsReceived(FrameIds(RunZones(boardId, zones, i, k, respond).frames), boardId, zones, i, k, respond)
    decreases |zones| - i
  {
    if i < |zones| {
      var z := RunZone(boardId, zones[i], k, respond);
      ZoneFailFast(boardId, zones[i], k, respond);
      if z.failure.Some? {
        ZoneStops(boardId, zones, i, k, respond);
        StoppedInZone(boardId, zones, i, z);
        assert FrameIds(z.frames) == [] || FrameIds(z.frames) == [IdOf(respond(k))];
        IdsStopped(boardId, zones, i, k, respond, FrameIds(z.frames));
      } else {
        var k' := k + |z.sent|;
        var rest := RunZones(boardId, zones, i + 1, k', respond);
        RunFollowsPlan(boardId, zones, i + 1, k', respond);
        CompletedZone(boardId, zones, i, IdOf(respond(k)), z, rest);
        IdsCompleted(boardId, zones, i, k, respond, IdOf(respond(k)), FrameIds(rest.frames));
        assert FrameIds(Then(z, rest).frames) == [IdOf(respond(k))] + FrameIds(rest.frames);
        ZoneContinues(boardId, zones, i, k, k', respond);
      }
    } else {
      assert Plan(boardId, zones, i, []) == [];
    }
  }

  /**
   * A run the server never refuses sends the board, then the whole plan
   * for the frame ids it receives, and creates one frame per zone with
   * that zone's title. The id of frame `j` is the answer to request
   * number `1 + FrameAt(.., j)`, which `PlanFrameAt` shows is the frame
   * request of zone `j`.
   */
  lemma CompleteRun(board: Request, zones: seq<ZoneSteps>, respond: nat -> Response)
    requires forall k :: Accepted(respond(k))
    ensures var t := RunBoard(board, zones, respond);
      && t.failure.None?
      && |t.frames| == |zones|
      && (forall j :: 0 <= j < |zones| ==> t.frames[j].0 == zones[j].title)
      && IdsReceived(FrameIds(t.frames), BoardIdOf(respond(0)), zones, 0, 1, respond)
      && t.sent == [board] + Plan(BoardIdOf(respond(0)), zones, 0, FrameIds(t.frames))
  {
    var t := RunBoard(board, zones, respond);
    var z := RunZones(BoardIdOf(respond(0)), zones, 0, 1, respond);
    assert t == Then(Trace([board], [], None), z);
    assert t.frames == z.frames;
    BoardFailFast(board, zones, respond);
    RunFollowsPlan(BoardIdOf(respond(0)), zones, 0, 1, respond);
    assert FollowsPlan(z, BoardIdOf(respond(0)), zones, 0);
  }

  /**
   * A run that stops early sends the board and an initial part of the
   * plan, ending with the refused request.
   */
  lemma StoppedRun(board: Request, zones: seq<ZoneSteps>, respond: nat -> Response)
    requires Accepted(respond(0))
    ensures var t := RunBoard(board, zones, respond);
      Prefix(t.sent, [board] + Plan(BoardIdOf(respond(0)), zones, 0, FrameIds(t.frames)))
  {
    var t := RunBoard(board, zones, respond);
    var z := RunZones(BoardIdOf(respond(0)), zones, 0, 1, respond);
    assert t == Then(Trace([board], [], None), z);
    assert t.frames == z.frames;
    RunFollowsPlan(BoardIdOf(respond(0)), zones, 0, 1, respond);
    PrefixAfter([board], z.sent, Plan(BoardIdOf(respond(0)), zones, 0, FrameIds(z.frames)));
  }

  /**
   * When the board and the first frame are accepted, the first zone's
   * frame is created under the second answer's id, and the run goes on
   * with that zone's frame and elements, the elements under that id.
   */
  lemma FirstZoneFirst(board: Request, zones: seq<ZoneSteps>, respond: nat -> Response)
    requires zones != [] && Accepted(respond(0)) && Accepted(respond(1))
    ensures var t := RunBoard(board, zones, respond);
      var fid := IdOf(respond(1));
      && t.frames != [] && t.frames[0] == (zones[0].title, fid)
      && ((forall k :: Accepted(respond(k))) ==> Prefix([board] + ZonePlan(BoardIdOf(respond(0)), zones[0], fid), t.sent))
  {
    var boardId := BoardIdOf(respond(0));
    var fid := IdOf(respond(1));
    var t := RunBoard(board, zones, respond);
    var z := RunZone(boardId, zones[0], 1, respond);
    ZoneFailFast(boardId, zones[0], 1, respond);
    var plan := ZonePlan(boardId, zones[0], fid);
    if z.failure.Some? {
      ZoneStops(boardId, zones, 0, 1, respond);
      assert t.frames == z.frames;
      assert !Accepted(respond(|z.sent|));
    } else {
      var rest := RunZones(boardId, zones, 1, 1 + |z.sent|, respond);
      ZoneContinues(boardId, zones, 0, 1, 1 + |z.sent|, respond);
      assert t.sent == [board] + z.sent + rest.sent;
      assert t.sent[..1 + |plan|] == [board] + plan;
    }
  }

  /** A refused board request ends the run before any zone is touched. */
  lemma BoardRefused(board: Request, zones: seq<ZoneSteps>, respond: nat -> Response)
    requires !Accepted(respond(0))
    ensures var t := RunBoard(board, zones, respond);
      t.sent == [board] && t.frames == [] && t.failure == Some(Outcome(respond(0)).error)
  {
  }
}

=== FILE: grid.dfy ===
/**
 * Row-major grid placement by Python's `divmod(i, cols)`, shared by the
 * slide card grids and the Miro sticky-note grids.
 */
module Grid {

  datatype Cell = Cell(row: nat, col: nat)

  /** `row, col = divmod(i, cols)`: item `i` lands in row-major order. */
  function DivMod(i: nat, cols: nat): (c: Cell)
    requires cols > 0
    ensures c.row * cols + c.col == i && c.col < cols
  {
    Cell(i / cols, i % cols)
  }

  lemma {:induction false} MulMono(a: nat, b: nat, k: nat)
    requires a <= b
    ensures a * k <= b * k
    decreases b - a
  {
    if a < b {
      MulMono(a, b - 1, k);
      assert (b - 1) * k + k == b * k;
    }
  }

  /** Any row-major decomposition of `i` is the one `DivMod` returns. */
  lemma DivModUnique(i: nat, cols: nat, c: Cell)
    requires cols > 0 && c.col < cols && c.row * cols + c.col == i
    ensures DivMod(i, cols) == c
  {
    var d := DivMod(i, cols);
    if d.row < c.row {
      assert (d.row + 1) * cols == d.row * cols + cols;
      MulMono(d.row + 1, c.row, cols);
    } else if d.row > c.row {
      assert (c.row + 1) * cols == c.row * cols + cols;
      MulMono(c.row + 1, d.row, cols);
    }
  }

  /** Fewer than `rows * cols` items stay within the first `rows` rows. */
  lemma DivModRows(i: nat, rows: nat, cols: nat)
    requires cols > 0 && i < rows * cols
    ensures DivMod(i, cols).row < rows
  {
    var c := DivMod(i, cols);
    if c.row >= rows {
      MulMono(rows, c.row, cols);
    }
  }
}

=== FILE: miro.dfy ===
/**
 * The request bodies build-miro-board.py posts to the Miro REST API, one
 * pure function per `create_*` helper. A body is a record whose optional
 * keys are `Option`s: `None` means the key is absent from the JSON.
 */
module Miro {
  import opened Wrappers
  import opened Text
  import opened Numerals

  const Base: string := "https://api.miro.com/v2"
  const BoardName: string := "Designing Learning as a Cross-Functional Activity System \U{2014} Workshop"
  const BoardDescription: string :=
    "135-minute cross-functional learning design workshop. See facilitator miro-playbook."
  const FrameWidth: int := 1600
  const FrameHeight: int := 1400
  const ParentTopLeft: string := "parent_top_left"
  const DefaultTextColor: string := "#1a1a1a"

  /** The longest title and content the helpers pass on. */
  const BoardNameLimit: nat := 60
  const TitleLimit: nat := 6000
  const ContentLimit: nat := 65000

  datatype Position = Position(x: int, y: int, relativeTo: Option<string>)

  datatype BoardBody = BoardBody(name: string, description: string, teamId: Option<string>)

  datatype FrameBody = FrameBody(
    title: string, format: string, frameType: string,
    position: Position, width: int, height: int, fillColor: Option<string>)

  datatype TextStyle = TextStyle(
    fontSize: string, color: string, fillColor: Option<string>, fillOpacity: Option<string>)

  datatype TextBody = TextBody(
    content: string, position: Position, width: int, style: TextStyle, parent: Option<string>)

  datatype StickyBody = StickyBody(
    content: string, shape: string, position: Position, width: int,
    fillColor: string, parent: Option<string>)

  datatype ShapeBody = ShapeBody(
    shape: string, content: string, position: Position, width: int, height: int,
    fillColor: string, parent: Option<string>)

  datatype Body =
    | BoardItem(board: BoardBody)
    | FrameItem(frame: FrameBody)
    | TextItem(text: TextBody)
    | StickyItem(sticky: StickyBody)
    | ShapeItem(shapeBody: ShapeBody)

  /** A POST: the URL it goes to and the JSON body it carries. */
  datatype Request = Request(path: string, body: Body)

  /** `p` is an initial segment of `s`. */
  predicate Prefix<T(==)>(p: seq<T>, s: seq<T>) {
    |p| <= |s| && p == s[..|p|]
  }

  /** Python's `s[:n]`. */
  function Truncate(s: string, n: nat): (r: string)
    ensures |r| <= n && Prefix(r, s)
    ensures |s| <= n ==> r == s
    ensures |s| > n ==> |r| == n
  {
    if |s| <= n then s else s[..n]
  }

  /** Python truthiness of an optional id or colour: present and not empty. */
  predicate Truthy(o: Option<string>) {
    o.Some? && o.value != ""
  }

  /** The position dict: `relativeTo` is added only under a truthy parent. */
  function At(x: int, y: int, parent: Option<string>): (p: Position)
    ensures p.x == x && p.y == y
    ensures p.relativeTo.Some? <==> Truthy(parent)
    ensures p.relativeTo.Some? ==> p.relativeTo.value == ParentTopLeft
  {
    Position(x, y, if Truthy(parent) then Some(ParentTopLeft) else None)
  }

  /** The `parent` key: `{"id": str(parent_id)}` only under a truthy parent. */
  function Link(parent: Option<string>): (l: Option<string>)
    ensures l.Some? <==> Truthy(parent)
    ensures l.Some? ==> l == parent
  {
    if Truthy(parent) then parent else None
  }

  /** The parent id a request links its item to, if any. */
  function ParentOf(r: Request): Option<string> {
    match r.body
    case TextItem(t) => t.parent
    case StickyItem(s) => s.parent
    case ShapeItem(s) => s.parent
    case _ => None
  }

  function BoardPath(boardId: string, kind: string): string {
    Base + "/boards/" + boardId + "/" + kind
  }

  /**
   * `create_board`: the name cut to 60 characters, and `teamId` present
   * exactly when the team id from the environment is not blank, stripped.
   */
  function CreateBoard(teamEnv: string): (r: Request)
    ensures r.path == Base + "/boards" && r.body.BoardItem?
    ensures var b := r.body.board;
      && |b.name| <= BoardNameLimit && Prefix(b.name, BoardName)
      && b.description == BoardDescription
      && (b.teamId.Some? <==> exists i :: 0 <= i < |teamEnv| && !IsSpace(teamEnv[i]))
      && (b.teamId.Some? ==> b.teamId.value == Strip(teamEnv))
  {
    var team := Strip(teamEnv);
    StripEmptyIffBlank(teamEnv);
    Request(Base + "/boards",
      BoardItem(BoardBody(Truncate(BoardName, BoardNameLimit), BoardDescription,
                          if team != "" then Some(team) else None)))
  }

  /** `create_frame`: the title cut to 6000 characters, a fill style only for a truthy colour. */
  function CreateFrame(boardId: string, title: string, x: int, y: int, width: int, height: int,
                       fill: Option<string>): (r: Request)
    ensures r.path == BoardPath(boardId, "frames") && r.body.FrameItem?
    ensures var f := r.body.frame;
      && |f.title| <= TitleLimit && Prefix(f.title, title)
      && (|title| <= TitleLimit ==> f.title == title)
      && (|title| > TitleLimit ==> |f.title| == TitleLimit)
      && f.format == "custom" && f.frameType == "freeform"
      && f.position == Position(x, y, None)
      && f.width == width && f.height == height
      && (f.fillColor.Some? <==> Truthy(fill))
      && (f.fillColor.Some? ==> f.fillColor == fill)
  {
    Request(BoardPath(boardId, "frames"),
      FrameItem(FrameBody(Truncate(title, TitleLimit), "custom", "freeform", Position(x, y, None),
                          width, height, if Truthy(fill) then fill else None)))
  }

  /**
   * `create_text`: content cut to 65000 characters, the font size as a
   * decimal string, `fillColor` and `fillOpacity = "1.0"` together and only
   * for a truthy fill, parent linkage only for a truthy parent.
   */
  function CreateText(boardId: string, content: string, x: int, y: int, parent: Option<string>,
                      width: int, fontSize: int, color: string, fill: Option<string>): (r: Request)
    ensures r.path == BoardPath(boardId, "texts") && r.body.TextItem?
    ensures var t := r.body.text;
      && |t.content| <= ContentLimit && Prefix(t.content, content)
      && (|content| <= ContentLimit ==> t.content == content)
      && (|content| > ContentLimit ==> |t.content| == ContentLimit)
      && t.position == At(x, y, parent) && t.parent == Link(parent)
      && t.width == width
      && ParseNat(t.style.fontSize) == (if fontSize >= 0 then Some(fontSize as nat) else None)
      && t.style.color == color
      && (t.style.fillColor.Some? <==> Truthy(fill))
      && (t.style.fillOpacity.Some? <==> Truthy(fill))
      && (t.style.fillColor.Some? ==> t.style.fillColor == fill && t.style.fillOpacity == Some("1.0"))
  {
    IntToStringParses(fontSize);
    var style := TextStyle(IntToString(fontSize), color,
      if Truthy(fill) then fill else None,
      if Truthy(fill) then Some("1.0") else None);
    Request(BoardPath(boardId, "texts"),
      TextItem(TextBody(Truncate(content, ContentLimit), At(x, y, parent), width, style, Link(parent))))
  }

  /** `create_sticky`: content cut to 65000 characters, a rectangle, the fill always set. */
  function CreateSticky(boardId: string, content: string, x: int, y: int, parent: Option<string>,
                        fill: string, width: int): (r: Request)
    ensures r.path == BoardPath(boardId, "sticky_notes") && r.body.StickyItem?
    ensures var s := r.body.sticky;
      && |s.content| <= ContentLimit && Prefix(s.content, content)
      && (|content| <= ContentLimit ==> s.content == content)
      && (|content| > ContentLimit ==> |s.content| == ContentLimit)
      && s.shape == "rectangle"
      && s.position == At(x, y, parent) && s.parent == Link(parent)
      && s.width == width && s.fillColor == fill
  {
    Request(BoardPath(boardId, "sticky_notes"),
      StickyItem(StickyBody(Truncate(content, ContentLimit), "rectangle", At(x, y, parent), width,
                            fill, Link(parent))))
  }

  /** `create_shape`: a rectangle whose content is passed on uncut, the fill always set. */
  function CreateShape(boardId: string, x: int, y: int, width: int, height: int, parent: Option<string>,
                       fill: string, content: string): (r: Request)
    ensures r.path == BoardPath(boardId, "shapes") && r.body.ShapeItem?
    ensures var s := r.body.shapeBody;
      && s.shape == "rectangle" && s.content == content
      && s.position == At(x, y, parent) && s.parent == Link(parent)
      && s.width == width && s.height == height && s.fillColor == fill
  {
    Request(BoardPath(boardId, "shapes"),
      ShapeItem(ShapeBody("rectangle", content, At(x, y, parent), width, height, fill, Link(parent))))
  }

  /**
   * A truthy parent adds `relativeTo` and `parent` to a text body and
   * changes nothing else: the body without a parent is the same record
   * with those two keys removed.
   */
  lemma TextParentOnlyLinks(boardId: string, content: string, x: int, y: int, parent: string,
                            width: int, fontSize: int, color: string, fill: Option<string>)
    requires parent != ""
    ensures var linked := CreateText(boardId, content, x, y, Some(parent), width, fontSize, color, fill);
      var plain := CreateText(boardId, content, x, y, None, width, fontSize, color, fill);
      && linked.body.text.position.relativeTo == Some(ParentTopLeft)
      && linked.body.text.parent == Some(parent)
      && plain.body.text.position.relativeTo.None? && plain.body.text.parent.None?
      && plain == linked.(body := TextItem(linked.body.text.(
           position := linked.body.text.position.(relativeTo := None), parent := None)))
  {
  }

  /** The same for sticky notes. */
  lemma StickyParentOnlyLinks(boardId: string, content: string, x: int, y: int, parent: string,
                              fill: string, width: int)
    requires parent != ""
    ensures var linked := CreateSticky(boardId, content, x, y, Some(parent), fill, width);
      var plain := CreateSticky(boardId, content, x, y, None, fill, width);
      && linked.body.sticky.position.relativeTo == Some(ParentTopLeft)
      && linked.body.sticky.parent == Some(parent)
      && plain.body.sticky.position.relativeTo.None? && plain.body.sticky.parent.None?
      && plain == linked.(body := StickyItem(linked.body.sticky.(
           position := linked.body.sticky.position.(relativeTo := None), parent := None)))
  {
  }

  /** The same for shapes. */
  lemma ShapeParentOnlyLinks(boardId: string, x: int, y: int, width: int, height: int, parent: string,
                             fill: string, content: string)
    requires parent != ""
    ensures var linked := CreateShape(boardId, x, y, width, height, Some(parent), fill, content);
      var plain := CreateShape(boardId, x, y, width, height, None, fill, content);
      && linked.body.shapeBody.position.relativeTo == Some(ParentTopLeft)
      && linked.body.shapeBody.parent == Some(parent)
      && plain.body.shapeBody.position.relativeTo.None? && plain.body.shapeBody.parent.None?
      && plain == linked.(body := ShapeItem(linked.body.shapeBody.(
           position := linked.body.shapeBody.position.(relativeTo := None), parent := None)))
  {
  }

  /** An empty parent id is falsy: the body is the same as with no parent at all. */
  lemma EmptyParentIsNoParent(boardId: string, content: string, x: int, y: int,
                              width: int, fontSize: int, color: string, fill: Option<string>)
    ensures CreateText(boardId, content, x, y, Some(""), width, fontSize, color, fill)
         == CreateText(boardId, content, x, y, None, width, fontSize, color, fill)
  {
  }

  /** A fill colour on a text changes only the two fill keys of its style. */
  lemma TextFillOnlyStyles(boardId: string, content: string, x: int, y: int, parent: Option<string>,
                           width: int, fontSize: int, color: string, fill: string)
    requires fill != ""
    ensures var filled := CreateText(boardId, content, x, y, parent, width, fontSize, color, Some(fill));
      var plain := CreateText(boardId, content, x, y, parent, width, fontSize, color, None);
      plain == filled.(body := TextItem(filled.body.text.(
        style := filled.body.text.style.(fillColor := None, fillOpacity := None))))
  {
  }

  /** The board name is longer than 60 characters, so it is always cut to exactly 60. */
  lemma BoardNameCut(teamEnv: string)
    ensures |CreateBoard(teamEnv).body.board.name| == BoardNameLimit
  {
    assert |BoardName| == 67;
  }
}

=== FILE: numerals.dfy ===
/**
 * Decimal rendering of integers as Python's `str(int)` and f-strings
 * produce it, together with the parser that reads such a rendering back.
 */
module Numerals {
  import opened Wrappers

  predicate IsDigit(c: char) {
    '0' <= c <= '9'
  }

  predicate AllDigits(s: string) {
    forall i :: 0 <= i < |s| ==> IsDigit(s[i])
  }

  function DigitChar(d: nat): (c: char)
    requires d < 10
    ensures IsDigit(c)
  {
    ('0' as int + d) as char
  }

  function DigitValue(c: char): (d: nat)
    requires IsDigit(c)
    ensures d < 10 && DigitChar(d) == c
  {
    c as int - '0' as int
  }

  /** `str(n)` for a natural number: no sign, no leading zero. */
  function NatToString(n: nat): (s: string)
    ensures s != "" && AllDigits(s)
    ensures s[0] == '0' ==> s == "0"
    decreases n
  {
    if n < 10 then [DigitChar(n)] else NatToString(n / 10) + [DigitChar(n % 10)]
  }

  /** `str(i)` for any integer: a minus sign before the magnitude when negative. */
  function IntToString(i: int): (s: string)
    ensures s != ""
    ensures i >= 0 <==> AllDigits(s)
  {
    if i >= 0 then NatToString(i)
    else
      var s := "-" + NatToString(-i);
      assert !IsDigit(s[0]);
      s
  }

  /** The value of a run of decimal digits, most significant first. */
  function DigitsValue(s: string): nat
    requires AllDigits(s)
    decreases |s|
  {
    if s == "" then 0 else 10 * DigitsValue(s[..|s| - 1]) + DigitValue(s[|s| - 1])
  }

  /** Reads a canonical decimal rendering back: digits only, no leading zero. */
  function ParseNat(s: string): (r: Option<nat>)
    ensures r.Some? ==> s != "" && AllDigits(s)
  {
    if s != "" && AllDigits(s) && (s[0] != '0' || s == "0") then Some(DigitsValue(s)) else None
  }

  /** Reading back what `NatToString` wrote gives the number again. */
  lemma {:induction false} NatToStringValue(n: nat)
    ensures DigitsValue(NatToString(n)) == n
    decreases n
  {
    if n >= 10 {
      var s := NatToString(n);
      NatToStringValue(n / 10);
      assert s[..|s| - 1] == NatToString(n / 10);
    }
  }

  lemma NatToStringParses(n: nat)
    ensures ParseNat(NatToString(n)) == Some(n)
  {
    NatToStringValue(n);
  }

  /** Only the rendering of a non-negative integer reads back as a number. */
  lemma IntToStringParses(i: int)
    ensures ParseNat(IntToString(i)) == if i >= 0 then Some(i as nat) else None
  {
    if i >= 0 {
      NatToStringParses(i);
    }
  }

  /** The rendering of the value of a canonical string is that string. */
  lemma {:induction false} ValueRenders(s: string)
    requires s != "" && AllDigits(s) && (s[0] != '0' || s == "0")
    ensures NatToString(DigitsValue(s)) == s
    decreases |s|
  {
    var init := s[..|s| - 1];
    var d := DigitValue(s[|s| - 1]);
    if init == "" {
      assert s == [s[0]];
    } else {
      assert init[0] == s[0];
      ValueRenders(init);
      var v := DigitsValue(init);
      assert v != 0 by {
        assert NatToString(v) == init;
      }
      assert DigitsValue(s) / 10 == v && DigitsValue(s) % 10 == d;
      assert s == init + [s[|s| - 1]];
    }
  }

  /** `ParseNat` accepts exactly the renderings, so it inverts `NatToString`. */
  lemma ParseNatRenders(s: string, n: nat)
    ensures ParseNat(s) == Some(n) <==> s == NatToString(n)
  {
    if ParseNat(s) == Some(n) {
      ValueRenders(s);
    }
    if s == NatToString(n) {
      NatToStringParses(n);
    }
  }
}

=== FILE: slides.dfy ===
/**
 * The PDF deck of build-slides.py, reduced to what is not drawing:
 * the order in which slide builders run, the number each one is given,
 * the "n / total" label it prints, and the integer cells of the two
 * card grids (the role cards and the redesign-map sections).
 */
module Slides {
  import opened Wrappers
  import opened Numerals
  import opened Grid

  /** The `TOTAL` every slide prints after the slash. */
  const Total: nat := 37

  /** The slide builders in the order `build_slides` lists them. */
  const Deck: seq<string> := [
    "slide_00_title", "slide_01_agenda", "slide_02_diagnostic_norm", "slide_03_p1_header",
    "slide_04_prompt_1a", "slide_05_prompt_1b", "slide_06_definition", "slide_07_unpack_definition",
    "slide_08_prompt_1c", "slide_09_p2_header", "slide_10_recall_task", "slide_11_reveal_commitments",
    "slide_12_commitment1", "slide_13_commitment2", "slide_14_commitment3", "slide_15_role_application",
    "slide_16_worked_example_setup", "slide_17_worked_example_reveal", "slide_18_p3_header",
    "slide_19_role_clarification", "slide_20_perspective_taking", "slide_21_transition_p4",
    "slide_22_p4_header", "slide_23_diagnostic_norm_reminder", "slide_24_stage1_identify",
    "slide_25_stage2_diagnose", "slide_26_break", "slide_27_p5_header", "slide_28_redesign_map",
    "slide_29_lsj_prompt", "slide_30_p6_header", "slide_31_gallery_walk", "slide_32_p7_header",
    "slide_33_commitments_prompt", "slide_34_followup_plan", "slide_35_closing_retrieval",
    "slide_36_close"
  ]

  // ---------------------------------------------------------------------------
  // The page label
  // ---------------------------------------------------------------------------

  /** `f"{n} / {total}"`, as `slide_number` draws it. */
  function SlideLabel(n: nat, total: nat): string {
    NatToString(n) + " / " + NatToString(total)
  }

  /** The length of the run of digits that starts `s`. */
  function DigitRun(s: string): (k: nat)
    ensures k <= |s|
    ensures k < |s| ==> !IsDigit(s[k])
    ensures forall i :: 0 <= i < k ==> IsDigit(s[i])
    decreases |s|
  {
    if s != "" && IsDigit(s[0]) then 1 + DigitRun(s[1..]) else 0
  }

  /** Reads a label back into its two numbers; `None` for anything else. */
  function ParseLabel(s: string): Option<(nat, nat)> {
    var k := DigitRun(s);
    if k + 3 <= |s| && s[k..k + 3] == " / " then
      match (ParseNat(s[..k]), ParseNat(s[k + 3..]))
      case (Some(n), Some(total)) => Some((n, total))
      case _ => None
    else None
  }

  lemma {:induction false} DigitRunOf(d: string, rest: string)
    requires AllDigits(d)
    requires rest == "" || !IsDigit(rest[0])
    ensures DigitRun(d + rest) == |d|
    decreases |d|
  {
    if d != "" {
      assert (d + rest)[1..] == d[1..] + rest;
      DigitRunOf(d[1..], rest);
    } else {
      assert d + rest == rest;
    }
  }

  /** A label is read back as exactly the numbers it was made from, and nothing else reads back as them. */
  lemma LabelCharacterised(s: string, n: nat, total: nat)
    ensures ParseLabel(s) == Some((n, total)) <==> s == SlideLabel(n, total)
  {
    var a, b := NatToString(n), NatToString(total);
    if s == SlideLabel(n, total) {
      DigitRunOf(a, " / " + b);
      assert s == a + (" / " + b);
      assert s[..|a|] == a && s[|a|..|a| + 3] == " / " && s[|a| + 3..] == b;
      NatToStringParses(n);
      NatToStringParses(total);
    }
    if ParseLabel(s) == Some((n, total)) {
      var k := DigitRun(s);
      assert k + 3 <= |s| && s[k..k + 3] == " / ";
      assert ParseNat(s[..k]) == Some(n) && ParseNat(s[k + 3..]) == Some(total);
      ParseNatRenders(s[..k], n);
      ParseNatRenders(s[k + 3..], total);
      ThreeParts(s, k, k + 3);
    }
  }

  lemma ThreeParts(s: string, i: nat, j: nat)
    requires i <= j <= |s|
    ensures s == s[..i] + s[i..j] + s[j..]
  {
  }

  /** Different numbers always give different labels. */
  lemma LabelInjective(n: nat, total: nat, n': nat, total': nat)
    requires SlideLabel(n, total) == SlideLabel(n', total')
    ensures n == n' && total == total'
  {
    LabelCharacterised(SlideLabel(n, total), n, total);
    LabelCharacterised(SlideLabel(n, total), n', total');
  }

  // ---------------------------------------------------------------------------
  // Sequencing
  // ---------------------------------------------------------------------------

  /** One page of the deck: the builder that drew it, the number it was given, the label it shows. */
  datatype Page = Page(builder: string, number: nat, pageLabel: string)

  /** The loop `for i, slide_fn in enumerate(builders, n)`: one page per builder, numbered on from `n`. */
  function Emit(builders: seq<string>, n: nat, total: nat): (pages: seq<Page>)
    ensures |pages| == |builders|
    ensures forall k :: 0 <= k < |pages| ==>
      pages[k] == Page(builders[k], n + k, SlideLabel(n + k, total))
    decreases |builders|
  {
    if builders == [] then []
    else [Page(builders[0], n, SlideLabel(n, total))] + Emit(builders[1..], n + 1, total)
  }

  /** `build_slides`: the builders run in list order with 1-based numbers, each printing `TOTAL`. */
  function BuildSlides(deck: seq<string>): seq<Page> {
    Emit(deck, 1, Total)
  }

  /**
   * The printed labels read "n / number of pages" on every page exactly
   * when the builder list has `TOTAL` entries.
   */
  lemma LabelsCountPages(deck: seq<string>)
    requires deck != []
    ensures var pages := BuildSlides(deck);
      (forall k :: 0 <= k < |pages| ==> pages[k].pageLabel == SlideLabel(k + 1, |pages|)) <==> |deck| == Total
  {
    var pages := BuildSlides(deck);
    if forall k :: 0 <= k < |pages| ==> pages[k].pageLabel == SlideLabel(k + 1, |pages|) {
      assert pages[0].pageLabel == SlideLabel(1, |pages|);
      LabelInjective(1, Total, 1, |pages|);
    }
  }

  /** The builder list has exactly `TOTAL` entries. */
  lemma DeckSize()
    ensures |Deck| == Total
  {
  }

  /** A deck of `TOTAL` builders gives pages numbered 1 to 37, the last one labelled "37 / 37". */
  lemma DeckLabels(deck: seq<string>)
    requires |deck| == Total
    ensures var pages := BuildSlides(deck);
      && |pages| == 37
      && (forall k :: 0 <= k < |pages| ==>
            pages[k].builder == deck[k] && pages[k].number == k + 1 && pages[k].pageLabel == SlideLabel(k + 1, 37))
      && pages[|pages| - 1].pageLabel == "37 / 37"
  {
    LastLabel();
  }

  lemma LastLabel()
    ensures SlideLabel(37, 37) == "37 / 37"
  {
    assert NatToString(3) == "3";
    assert NatToString(37) == "37";
  }

  /** No two pages of a deck carry the same label. */
  lemma LabelsDistinct(deck: seq<string>, j: nat, k: nat)
    requires j < k < |deck|
    ensures BuildSlides(deck)[j].pageLabel != BuildSlides(deck)[k].pageLabel
  {
    var pages := BuildSlides(deck);
    if pages[j].pageLabel == pages[k].pageLabel {
      LabelInjective(j + 1, Total, k + 1, Total);
    }
  }

  // ---------------------------------------------------------------------------
  // Card grids
  // ---------------------------------------------------------------------------

  /** The cells `divmod` gives the first `n` cards of a grid `cols` wide. */
  function CardCells(n: nat, cols: nat): (cells: seq<Cell>)
    requires cols > 0
    ensures |cells| == n
    ensures forall i :: 0 <= i < n ==> cells[i].row * cols + cells[i].col == i && cells[i].col < cols
  {
    seq(n, i requires 0 <= i => DivMod(i, cols))
  }

  /** `n` cards that fit in `rows` rows of `cols` get distinct cells inside that grid. */
  lemma GridLayout(n: nat, rows: nat, cols: nat)
    requires cols > 0 && n <= rows * cols
    ensures var cells := CardCells(n, cols);
      && (forall i :: 0 <= i < n ==> cells[i].row < rows && cells[i].col < cols)
      && (forall i, j :: 0 <= i < j < n ==> cells[i] != cells[j])
  {
    var cells := CardCells(n, cols);
    forall i | 0 <= i < n
      ensures cells[i].row < rows
    {
      DivModRows(i, rows, cols);
    }
  }

  /** The number of sections on the redesign-map slide. */
  const RedesignSections: nat := 7

  /**
   * The redesign-map sections fill a grid four wide: two rows, the first
   * holding sections 1 to 4 and the second sections 5 to 7, no two sharing a cell.
   */
  lemma RedesignLayout()
    ensures var cells := CardCells(RedesignSections, 4);
      && (forall i :: 0 <= i < 7 ==> cells[i].row < 2 && cells[i].col < 4)
      && (forall i, j :: 0 <= i < j < 7 ==> cells[i] != cells[j])
      && (forall i :: 0 <= i < 7 ==> (cells[i].row == 0 <==> i < 4))
  {
    GridLayout(RedesignSections, 2, 4);
  }

  /** Where the role-clarification slide puts role card `i`: row by `i < 2`, column by parity. */
  function RoleCell(i: nat): (c: Cell)
    ensures c.row < 2 && c.col < 2
    ensures i < 4 ==> c.row * 2 + c.col == i
  {
    Cell(if i < 2 then 0 else 1, i % 2)
  }

  /**
   * The four role cards take the four cells of a two-by-two grid, one
   * each: the same cells `divmod(i, 2)` would give them.
   */
  lemma RoleLayout()
    ensures forall i :: 0 <= i < 4 ==> RoleCell(i) == CardCells(4, 2)[i]
    ensures forall i, j :: 0 <= i < j < 4 ==> RoleCell(i) != RoleCell(j)
  {
    GridLayout(4, 2, 2);
    forall i | 0 <= i < 4
      ensures RoleCell(i) == CardCells(4, 2)[i]
    {
      DivModUnique(i, 2, RoleCell(i));
    }
  }
}

=== FILE: text.dfy ===
/**
 * The small part of Python's `str` that the generators rely on:
 * `isspace`, `split()` with no separator, `strip()`, and the single-space
 * join that `_wrap` performs implicitly when it grows a line.
 */
module Text {

  /**
   * Python's `str.isspace` for one code point: the C0 controls tab to
   * carriage return and file to unit separator, space, next line,
   * no-break space, and the Unicode space separators.
   */
  predicate IsSpace(c: char) {
    || '\t' <= c <= '\r'
    || '\U{1C}' <= c <= ' '
    || c == '\U{85}' || c == '\U{A0}' || c == '\U{1680}'
    || '\U{2000}' <= c <= '\U{200A}'
    || c == '\U{2028}' || c == '\U{2029}' || c == '\U{202F}' || c == '\U{205F}' || c == '\U{3000}'
  }

  predicate NoSpace(s: string) {
    forall i :: 0 <= i < |s| ==> !IsSpace(s[i])
  }

  /** A word as `split()` yields it: non-empty, no whitespace inside. */
  predicate IsWord(w: string) {
    w != "" && NoSpace(w)
  }

  predicate AllWords(ws: seq<string>) {
    forall i :: 0 <= i < |ws| ==> IsWord(ws[i])
  }

  /** The string with its leading whitespace removed. */
  function SkipSpaces(s: string): (r: string)
    ensures |r| <= |s| && r == s[|s| - |r|..]
    ensures r == "" || !IsSpace(r[0])
  {
    if s != "" && IsSpace(s[0]) then SkipSpaces(s[1..]) else s
  }

  lemma {:induction false} SkipSpacesRemovesSpaces(s: string)
    ensures forall i :: 0 <= i < |s| - |SkipSpaces(s)| ==> IsSpace(s[i])
  {
    if s != "" && IsSpace(s[0]) {
      SkipSpacesRemovesSpaces(s[1..]);
    }
  }

  /** The string with its trailing whitespace removed. */
  function DropTrailingSpaces(s: string): (r: string)
    ensures |r| <= |s| && r == s[..|r|]
    ensures r == "" || !IsSpace(r[|r| - 1])
  {
    if s != "" && IsSpace(s[|s| - 1]) then DropTrailingSpaces(s[..|s| - 1]) else s
  }

  lemma {:induction false} DropTrailingRemovesSpaces(s: string)
    ensures forall i :: |DropTrailingSpaces(s)| <= i < |s| ==> IsSpace(s[i])
  {
    if s != "" && IsSpace(s[|s| - 1]) {
      DropTrailingRemovesSpaces(s[..|s| - 1]);
    }
  }

  /** The longest prefix of `s` holding no whitespace. */
  function WordPrefix(s: string): (w: string)
    ensures |w| <= |s| && w == s[..|w|]
    ensures |w| == |s| || IsSpace(s[|w|])
  {
    if s == "" || IsSpace(s[0]) then "" else [s[0]] + WordPrefix(s[1..])
  }

  lemma {:induction false} WordPrefixNoSpace(s: string)
    ensures NoSpace(WordPrefix(s))
  {
    if s != "" && !IsSpace(s[0]) {
      WordPrefixNoSpace(s[1..]);
      var w := WordPrefix(s[1..]);
      assert WordPrefix(s) == [s[0]] + w;
      assert forall i :: 1 <= i < |w| + 1 ==> ([s[0]] + w)[i] == w[i - 1];
    }
  }

  /** Python's `s.split()`: the maximal whitespace-free runs, in order. */
  function Split(s: string): (ws: seq<string>)
    decreases |s|
  {
    var t := SkipSpaces(s);
    if t == "" then []
    else
      var w := WordPrefix(t);
      assert |w| > 0 by { assert !IsSpace(t[0]); }
      [w] + Split(t[|w|..])
  }

  /** Every piece `split()` yields is a word. */
  lemma {:induction false} SplitWords(s: string)
    ensures AllWords(Split(s))
    decreases |s|
  {
    var t := SkipSpaces(s);
    if t != "" {
      var w := WordPrefix(t);
      assert |w| > 0 by { assert !IsSpace(t[0]); }
      WordPrefixNoSpace(t);
      assert IsWord(w);
      var rest := Split(t[|w|..]);
      SplitWords(t[|w|..]);
      AllWordsCons(w, rest);
    }
  }

  lemma AllWordsCons(w: string, rest: seq<string>)
    requires IsWord(w) && AllWords(rest)
    ensures AllWords([w] + rest)
  {
    forall i | 0 <= i < |rest| + 1
      ensures IsWord(([w] + rest)[i])
    {
      if i > 0 {
        assert ([w] + rest)[i] == rest[i - 1];
      }
    }
  }

  /** `split()` finds no word exactly when the string is blank. */
  lemma SplitEmptyIffBlank(s: string)
    ensures Split(s) == [] <==> forall i :: 0 <= i < |s| ==> IsSpace(s[i])
  {
    var t := SkipSpaces(s);
    SkipSpacesRemovesSpaces(s);
    if t != "" {
      assert !IsSpace(s[|s| - |t|]);
      assert Split(s) != [];
    }
  }

  /** Python's `s.strip()`. */
  function Strip(s: string): string {
    DropTrailingSpaces(SkipSpaces(s))
  }

  /** `strip()` leaves nothing exactly when the string is blank. */
  lemma StripEmptyIffBlank(s: string)
    ensures Strip(s) == "" <==> forall i :: 0 <= i < |s| ==> IsSpace(s[i])
  {
    var t := SkipSpaces(s);
    SkipSpacesRemovesSpaces(s);
    DropTrailingRemovesSpaces(t);
    if t != "" {
      assert !IsSpace(s[|s| - |t|]);
      assert DropTrailingSpaces(t) != "" by {
        assert !IsSpace(t[0]);
      }
    }
  }

  /** `" ".join(ws)`. */
  function JoinWords(ws: seq<string>): string {
    if ws == [] then ""
    else if |ws| == 1 then ws[0]
    else ws[0] + " " + JoinWords(ws[1..])
  }

  /** Flattens a sequence of word lists, keeping their order. */
  function Concat(groups: seq<seq<string>>): seq<string> {
    if groups == [] then [] else groups[0] + Concat(groups[1..])
  }

  lemma {:induction false} ConcatAppend(groups: seq<seq<string>>, g: seq<string>)
    ensures Concat(groups + [g]) == Concat(groups) + g
  {
    if groups == [] {
      assert [g][1..] == [];
    } else {
      assert (groups + [g])[1..] == groups[1..] + [g];
      ConcatAppend(groups[1..], g);
    }
  }

  /** Appending one word to a non-empty line puts exactly one space before it. */
  lemma {:induction false} JoinAppend(ws: seq<string>, w: string)
    requires ws != []
    ensures JoinWords(ws + [w]) == JoinWords(ws) + " " + w
  {
    if |ws| == 1 {
      assert (ws + [w])[1..] == [w];
    } else {
      assert (ws + [w])[1..] == ws[1..] + [w];
      JoinAppend(ws[1..], w);
    }
  }

  /** A join of words starts and ends with a word character. */
  lemma {:induction false} JoinEnds(ws: seq<string>)
    requires ws != [] && AllWords(ws)
    ensures var s := JoinWords(ws); s != "" && !IsSpace(s[0]) && !IsSpace(s[|s| - 1])
  {
    if |ws| > 1 {
      assert AllWords(ws[1..]);
      JoinEnds(ws[1..]);
    }
  }

  lemma StripIdle(s: string)
    requires s != "" && !IsSpace(s[0]) && !IsSpace(s[|s| - 1])
    ensures Strip(s) == s
  {
  }

  lemma {:induction false} WordPrefixOf(w: string, tail: string)
    requires NoSpace(w)
    requires tail == "" || IsSpace(tail[0])
    ensures WordPrefix(w + tail) == w
  {
    if w != "" {
      assert (w + tail)[1..] == w[1..] + tail;
      WordPrefixOf(w[1..], tail);
    }
  }

  lemma SplitSkipsSpace(c: char, s: string)
    requires IsSpace(c)
    ensures Split([c] + s) == Split(s)
  {
    assert ([c] + s)[1..] == s;
  }

  /** A lone word splits into itself. */
  lemma SplitWord(w: string)
    requires IsWord(w)
    ensures Split(w) == [w]
  {
    assert SkipSpaces(w) == w;
    WordPrefixOf(w, "");
    assert w + "" == w;
    assert w[|w|..] == "";
  }

  /** A word followed by a space splits off as the first piece. */
  lemma SplitFirstWord(w: string, rest: string)
    requires IsWord(w)
    ensures Split(w + " " + rest) == [w] + Split(rest)
  {
    var s := w + " " + rest;
    assert s == w + ([' '] + rest);
    WordPrefixOf(w, [' '] + rest);
    assert SkipSpaces(s) == s;
    assert s[|w|..] == [' '] + rest;
    SplitSkipsSpace(' ', rest);
  }

  /**
   * `split()` undoes a single-space join of words: the words come back
   * in order, none dropped, none duplicated.
   */
  lemma {:induction false} SplitJoin(ws: seq<string>)
    requires AllWords(ws)
    ensures Split(JoinWords(ws)) == ws
  {
    if ws == [] {
      assert SkipSpaces("") == "";
    } else if |ws| == 1 {
      SplitWord(ws[0]);
    } else {
      var rest := JoinWords(ws[1..]);
      assert JoinWords(ws) == ws[0] + " " + rest;
      SplitFirstWord(ws[0], rest);
      assert AllWords(ws[1..]);
      SplitJoin(ws[1..]);
      assert Split(JoinWords(ws)) == [ws[0]] + ws[1..];
      HeadTail(ws);
    }
  }

  lemma HeadTail<T>(s: seq<T>)
    requires s != []
    ensures [s[0]] + s[1..] == s
  {
  }
}

=== FILE: wrap.dfy ===
/**
 * The greedy word-wrap helper `_wrap` of the slide generator.
 *
 * The text is split on whitespace and the words are packed into lines from
 * left to right: a word joins the current line when the joined line still
 * measures at most `maxW`, and otherwise starts a new line. The font
 * metric is a parameter `width`; every property below holds whatever
 * function it is.
 */
module Wrap {
  import opened Text

  /** The loop state of `_wrap`: the lines emitted so far and the line being grown. */
  datatype Packer = Packer(lines: seq<string>, current: string)

  const Start := Packer([], "")

  /** One turn of the loop over the words. */
  function Place(width: string -> real, maxW: real, p: Packer, word: string): Packer {
    var test := Strip(p.current + " " + word);
    if width(test) <= maxW then Packer(p.lines, test)
    else Packer(if p.current != "" then p.lines + [p.current] else p.lines, word)
  }

  /** The whole loop, one word after another. */
  function PackAll(width: string -> real, maxW: real, p: Packer, words: seq<string>): Packer
    decreases |words|
  {
    if words == [] then p else PackAll(width, maxW, Place(width, maxW, p, words[0]), words[1..])
  }

  /** After the loop the line being grown is emitted when it is not empty. */
  function Flush(p: Packer): seq<string> {
    if p.current != "" then p.lines + [p.current] else p.lines
  }

  /** `_wrap(text, font, size, max_w)`, the font and size folded into `width`. */
  function Wrap(text: string, width: string -> real, maxW: real): seq<string> {
    Flush(PackAll(width, maxW, Start, Split(text)))
  }

  // ---------------------------------------------------------------------------
  // What a greedy wrap is, independently of the loop

  /**
   * The line grew only while it fitted: every prefix of two or more of its
   * words measures at most `maxW`.
   */
  ghost predicate GrewFitting(width: string -> real, maxW: real, g: seq<string>)
    decreases |g|
  {
    |g| <= 1 || (GrewFitting(width, maxW, g[..|g| - 1]) && width(JoinWords(g)) <= maxW)
  }

  /** The line `g` was closed because the first word of the next line did not fit on it. */
  ghost predicate ClosedBy(width: string -> real, maxW: real, g: seq<string>, next: seq<string>) {
    next != [] && width(JoinWords(g) + " " + next[0]) > maxW
  }

  /**
   * A grouping of words into lines that the greedy rule produces: no empty
   * line, a line only grows while it fits, and a line is closed only when
   * the next word would not fit on it.
   */
  ghost predicate GreedyGroups(width: string -> real, maxW: real, groups: seq<seq<string>>) {
    && (forall k :: 0 <= k < |groups| ==> groups[k] != [] && GrewFitting(width, maxW, groups[k]))
    && (forall k :: 0 <= k < |groups| - 1 ==> ClosedBy(width, maxW, groups[k], groups[k + 1]))
  }

  lemma {:induction false} GrewFittingPrefix(width: string -> real, maxW: real, g: seq<string>, j: nat)
    requires GrewFitting(width, maxW, g) && 2 <= j <= |g|
    ensures width(JoinWords(g[..j])) <= maxW
    decreases |g|
  {
    if j < |g| {
      var h := g[..|g| - 1];
      assert h[..j] == g[..j];
      GrewFittingPrefix(width, maxW, h, j);
    } else {
      assert g[..j] == g;
    }
  }

  /** The next line's first word would overflow `line`. */
  ghost predicate Overflows(width: string -> real, maxW: real, line: string, nextLine: string) {
    Split(nextLine) != [] && width(line + " " + Split(nextLine)[0]) > maxW
  }

  /** The words of each line, line by line. */
  function SplitEach(lines: seq<string>): (groups: seq<seq<string>>)
    ensures |groups| == |lines|
    ensures forall k :: 0 <= k < |lines| ==> groups[k] == Split(lines[k])
  {
    seq(|lines|, k requires 0 <= k < |lines| => Split(lines[k]))
  }

  /**
   * `lines` is a greedy wrap of `words`: each line is the single-space join
   * of its own words, the words of all lines are `words` in order, and the
   * grouping obeys the greedy rule.
   */
  ghost predicate IsGreedyWrap(width: string -> real, maxW: real, words: seq<string>, lines: seq<string>) {
    var groups := SplitEach(lines);
    && Concat(groups) == words
    && GreedyGroups(width, maxW, groups)
    && (forall k :: 0 <= k < |lines| ==> lines[k] == JoinWords(groups[k]))
  }

  // ---------------------------------------------------------------------------
  // The loop keeps a greedy grouping of the words it has consumed

  ghost predicate WordGroups(groups: seq<seq<string>>) {
    forall k :: 0 <= k < |groups| ==> AllWords(groups[k])
  }

  /** Line `k` is the single-space join of group `k`. */
  ghost predicate Renders(lines: seq<string>, groups: seq<seq<string>>) {
    |lines| == |groups| && forall k :: 0 <= k < |lines| ==> lines[k] == JoinWords(groups[k])
  }

  /**
   * The loop state after consuming `done`: the emitted lines and the line
   * being grown are the joins of a greedy grouping of `done`.
   */
  ghost predicate Tracks(width: string -> real, maxW: real, p: Packer, done: seq<string>, groups: seq<seq<string>>) {
    && Concat(groups) == done
    && GreedyGroups(width, maxW, groups)
    && WordGroups(groups)
    && Holds(p, groups)
  }

  /** The packer holds the joins of `groups`: all but the last emitted, the last one being grown. */
  ghost predicate Holds(p: Packer, groups: seq<seq<string>>) {
    if groups == [] then p == Start
    else Renders(p.lines, groups[..|groups| - 1]) && p.current == JoinWords(groups[|groups| - 1])
  }

  lemma HoldsExtend(p: Packer, groups: seq<seq<string>>, w: string)
    requires Holds(p, groups) && groups != []
    ensures var n := |groups|;
      Holds(Packer(p.lines, JoinWords(groups[n - 1] + [w])), groups[..n - 1] + [groups[n - 1] + [w]])
  {
    var n := |groups|;
    var groups' := groups[..n - 1] + [groups[n - 1] + [w]];
    assert groups'[..n - 1] == groups[..n - 1];
  }

  lemma HoldsBreak(p: Packer, groups: seq<seq<string>>, w: string)
    requires Holds(p, groups) && groups != []
    ensures Holds(Packer(p.lines + [p.current], w), groups + [[w]])
  {
    var n := |groups|;
    var lines' := p.lines + [p.current];
    var groups' := groups + [[w]];
    assert groups'[..n] == groups;
    forall k | 0 <= k < n
      ensures lines'[k] == JoinWords(groups[k])
    {
      if k < n - 1 {
        assert lines'[k] == p.lines[k];
        assert groups[..n - 1][k] == groups[k];
      }
    }
  }

  /** One turn of the loop once a line is being grown: the candidate line decides. */
  lemma PlaceOnLine(width: string -> real, maxW: real, p: Packer, last: seq<string>, w: string)
    requires last != [] && AllWords(last) && IsWord(w) && p.current == JoinWords(last)
    ensures Place(width, maxW, p, w) ==
      if width(JoinWords(last + [w])) <= maxW then Packer(p.lines, JoinWords(last + [w]))
      else Packer(p.lines + [p.current], w)
  {
    CandidateLine(last, w);
    JoinEnds(last);
  }

  lemma StripLeadingSpace(w: string)
    requires IsWord(w)
    ensures Strip("" + " " + w) == w
  {
    assert "" + " " + w == [' '] + w;
    assert ([' '] + w)[1..] == w;
    assert SkipSpaces(w) == w;
  }

  /** The candidate line `_wrap` measures is the join of the current words and the new one. */
  lemma CandidateLine(last: seq<string>, w: string)
    requires last != [] && AllWords(last) && IsWord(w)
    ensures Strip(JoinWords(last) + " " + w) == JoinWords(last + [w])
  {
    JoinAppend(last, w);
    assert AllWords(last + [w]);
    JoinEnds(last + [w]);
    StripIdle(JoinWords(last + [w]));
  }

  /** The last group of a non-empty grouping, grown by one word that still fits. */
  lemma ExtendLast(width: string -> real, maxW: real, groups: seq<seq<string>>, w: string)
    requires GreedyGroups(width, maxW, groups) && WordGroups(groups) && groups != []
    requires IsWord(w)
    requires width(JoinWords(groups[|groups| - 1] + [w])) <= maxW
    ensures var groups' := groups[..|groups| - 1] + [groups[|groups| - 1] + [w]];
      && GreedyGroups(width, maxW, groups')
      && WordGroups(groups')
      && Concat(groups') == Concat(groups) + [w]
  {
    var n := |groups|;
    var init, last := groups[..n - 1], groups[n - 1];
    var groups' := init + [last + [w]];
    assert groups == init + [last];
    ConcatAppend(init, last);
    ConcatAppend(init, last + [w]);
    assert (last + [w])[..|last|] == last;
    assert GrewFitting(width, maxW, last + [w]);
    forall k | 0 <= k < n
      ensures groups'[k] != [] && GrewFitting(width, maxW, groups'[k]) && AllWords(groups'[k])
    {
      if k < n - 1 {
        assert groups'[k] == groups[k];
      } else {
        assert groups'[k] == last + [w];
      }
    }
    forall k | 0 <= k < n - 1
      ensures ClosedBy(width, maxW, groups'[k], groups'[k + 1])
    {
      assert groups'[k] == groups[k];
      assert groups'[k + 1][0] == groups[k + 1][0];
    }
  }

  /** A new one-word group after the last one, when the word does not fit on the last line. */
  lemma StartGroup(width: string -> real, maxW: real, groups: seq<seq<string>>, w: string)
    requires GreedyGroups(width, maxW, groups) && WordGroups(groups) && groups != []
    requires IsWord(w)
    requires width(JoinWords(groups[|groups| - 1]) + " " + w) > maxW
    ensures var groups' := groups + [[w]];
      && GreedyGroups(width, maxW, groups')
      && WordGroups(groups')
      && Concat(groups') == Concat(groups) + [w]
  {
    var n := |groups|;
    var groups' := groups + [[w]];
    ConcatAppend(groups, [w]);
    forall k | 0 <= k < n + 1
      ensures groups'[k] != [] && GrewFitting(width, maxW, groups'[k]) && AllWords(groups'[k])
    {
      if k < n {
        assert groups'[k] == groups[k];
      } else {
        assert groups'[k] == [w];
      }
    }
    forall k | 0 <= k < n
      ensures ClosedBy(width, maxW, groups'[k], groups'[k + 1])
    {
      assert groups'[k] == groups[k];
      if k < n - 1 {
        assert groups'[k + 1] == groups[k + 1];
      } else {
        assert groups'[k + 1][0] == w;
      }
    }
  }

  /** The first word always becomes the line being grown, whether it fits or not. */
  lemma PlaceFirst(width: string -> real, maxW: real, w: string)
    requires IsWord(w)
    ensures Tracks(width, maxW, Place(width, maxW, Start, w), [w], [[w]])
  {
    PlaceStart(width, maxW, w);
    OneWordTracks(width, maxW, w);
  }

  lemma PlaceStart(width: string -> real, maxW: real, w: string)
    requires IsWord(w)
    ensures Place(width, maxW, Start, w) == Packer([], w)
  {
    StripLeadingSpace(w);
  }

  lemma OneWordTracks(width: string -> real, maxW: real, w: string)
    requires IsWord(w)
    ensures Tracks(width, maxW, Packer([], w), [w], [[w]])
  {
    assert Concat([[w]]) == [w] + Concat([]);
    assert GreedyGroups(width, maxW, [[w]]);
    assert WordGroups([[w]]);
    assert [[w]][..0] == [];
    assert Holds(Packer([], w), [[w]]);
  }

  /** A word that fits is appended to the line being grown. */
  lemma PlaceExtend(width: string -> real, maxW: real, p: Packer, done: seq<string>,
                    groups: seq<seq<string>>, w: string)
    requires Tracks(width, maxW, p, done, groups) && groups != [] && IsWord(w)
    requires width(JoinWords(groups[|groups| - 1] + [w])) <= maxW
    ensures Tracks(width, maxW, Place(width, maxW, p, w), done + [w],
                   groups[..|groups| - 1] + [groups[|groups| - 1] + [w]])
  {
    var last := groups[|groups| - 1];
    PlaceOnLine(width, maxW, p, last, w);
    ExtendLast(width, maxW, groups, w);
    HoldsExtend(p, groups, w);
  }

  /** A word that does not fit closes the current line and starts the next one. */
  lemma PlaceBreak(width: string -> real, maxW: real, p: Packer, done: seq<string>,
                   groups: seq<seq<string>>, w: string)
    requires Tracks(width, maxW, p, done, groups) && groups != [] && IsWord(w)
    requires width(JoinWords(groups[|groups| - 1] + [w])) > maxW
    ensures Tracks(width, maxW, Place(width, maxW, p, w), done + [w], groups + [[w]])
  {
    var last := groups[|groups| - 1];
    PlaceOnLine(width, maxW, p, last, w);
    JoinAppend(last, w);
    StartGroup(width, maxW, groups, w);
    HoldsBreak(p, groups, w);
  }

  lemma {:induction false} PlaceTracks(width: string -> real, maxW: real, p: Packer, done: seq<string>,
                                       groups: seq<seq<string>>, w: string)
    returns (groups': seq<seq<string>>)
    requires Tracks(width, maxW, p, done, groups) && IsWord(w)
    ensures Tracks(width, maxW, Place(width, maxW, p, w), done + [w], groups')
  {
    if groups == [] {
      PlaceFirst(width, maxW, w);
      groups' := [[w]];
    } else if width(JoinWords(groups[|groups| - 1] + [w])) <= maxW {
      PlaceExtend(width, maxW, p, done, groups, w);
      groups' := groups[..|groups| - 1] + [groups[|groups| - 1] + [w]];
    } else {
      PlaceBreak(width, maxW, p, done, groups, w);
      groups' := groups + [[w]];
    }
  }

  lemma {:induction false} PackAllTracks(width: string -> real, maxW: real, p: Packer, done: seq<string>,
                                         groups: seq<seq<string>>, words: seq<string>)
    returns (groups': seq<seq<string>>)
    requires Tracks(width, maxW, p, done, groups) && AllWords(words)
    ensures Tracks(width, maxW, PackAll(width, maxW, p, words), done + words, groups')
    decreases |words|
  {
    if words == [] {
      groups' := groups;
      assert done + words == done;
    } else {
      assert words == [words[0]] + words[1..];
      assert done + words == done + [words[0]] + words[1..];
      var g := PlaceTracks(width, maxW, p, done, groups, words[0]);
      assert AllWords(words[1..]);
      groups' := PackAllTracks(width, maxW, Place(width, maxW, p, words[0]), done + [words[0]], g, words[1..]);
    }
  }

  /** Lines cannot outnumber the words they hold. */
  lemma {:induction false} ConcatLength(groups: seq<seq<string>>)
    requires forall k :: 0 <= k < |groups| ==> groups[k] != []
    ensures |Concat(groups)| >= |groups|
  {
    if groups != [] {
      ConcatLength(groups[1..]);
    }
  }

  /** After the loop, the flushed lines are the joins of all the groups. */
  lemma FlushRenders(p: Packer, groups: seq<seq<string>>)
    requires Holds(p, groups) && WordGroups(groups)
    requires forall k :: 0 <= k < |groups| ==> groups[k] != []
    ensures Renders(Flush(p), groups)
  {
    if groups != [] {
      var n := |groups|;
      JoinEnds(groups[n - 1]);
      var lines := p.lines + [p.current];
      assert Flush(p) == lines;
      forall k | 0 <= k < n
        ensures lines[k] == JoinWords(groups[k])
      {
        if k < n - 1 {
          assert lines[k] == p.lines[k];
          assert groups[..n - 1][k] == groups[k];
        }
      }
    }
  }

  /** Joins of a greedy grouping of `words` form a greedy wrap of `words`. */
  lemma RendersGreedyWrap(width: string -> real, maxW: real, words: seq<string>,
                          groups: seq<seq<string>>, lines: seq<string>)
    requires Renders(lines, groups) && WordGroups(groups) && GreedyGroups(width, maxW, groups)
    requires Concat(groups) == words
    ensures IsGreedyWrap(width, maxW, words, lines)
    ensures SplitEach(lines) == groups
  {
    forall k | 0 <= k < |lines|
      ensures SplitEach(lines)[k] == groups[k]
    {
      SplitJoin(groups[k]);
    }
    assert SplitEach(lines) == groups;
  }

  /** A greedy line is not empty, and fits unless it is a single word. */
  lemma GreedyLine(width: string -> real, maxW: real, g: seq<string>)
    requires g != [] && AllWords(g) && GrewFitting(width, maxW, g)
    ensures JoinWords(g) != "" && (|g| == 1 || width(JoinWords(g)) <= maxW)
  {
    JoinEnds(g);
    if |g| >= 2 {
      GrewFittingPrefix(width, maxW, g, |g|);
      assert g[..|g|] == g;
    }
  }

  /** What `IsGreedyWrap` says about each line, spelled out. */
  lemma GreedyWrapLines(width: string -> real, maxW: real, words: seq<string>, lines: seq<string>)
    requires IsGreedyWrap(width, maxW, words, lines)
    ensures forall k :: 0 <= k < |lines| ==> lines[k] != ""
    ensures forall k :: 0 <= k < |lines| ==> |Split(lines[k])| == 1 || width(lines[k]) <= maxW
    ensures forall k :: 0 <= k < |lines| - 1 ==> Overflows(width, maxW, lines[k], lines[k + 1])
    ensures |lines| <= |words|
    ensures lines == [] <==> words == []
  {
    var groups := SplitEach(lines);
    forall k | 0 <= k < |lines|
      ensures lines[k] != "" && (|Split(lines[k])| == 1 || width(lines[k]) <= maxW)
    {
      SplitWords(lines[k]);
      GreedyLine(width, maxW, groups[k]);
    }
    ConcatLength(groups);
    if lines != [] {
      assert words == groups[0] + Concat(groups[1..]);
    }
  }

  /**
   * `_wrap` is a greedy wrap of the words of its input: nothing dropped,
   * duplicated or reordered, every line a single-space join of consecutive
   * words, a line either fits or is one over-wide word, and a line is only
   * closed when the next word would not fit on it.
   */
  lemma WrapIsGreedy(text: string, width: string -> real, maxW: real)
    ensures var lines := Wrap(text, width, maxW);
      && IsGreedyWrap(width, maxW, Split(text), lines)
      && (forall k :: 0 <= k < |lines| ==> lines[k] != "")
      && (forall k :: 0 <= k < |lines| ==> |Split(lines[k])| == 1 || width(lines[k]) <= maxW)
      && (forall k :: 0 <= k < |lines| - 1 ==> Overflows(width, maxW, lines[k], lines[k + 1]))
      && |lines| <= |Split(text)|
      && (lines == [] <==> Split(text) == [])
  {
    var words := Split(text);
    SplitWords(text);
    assert Tracks(width, maxW, Start, [], []);
    var groups := PackAllTracks(width, maxW, Start, [], [], words);
    assert [] + words == words;
    var p := PackAll(width, maxW, Start, words);
    FlushRenders(p, groups);
    RendersGreedyWrap(width, maxW, words, groups, Flush(p));
    GreedyWrapLines(width, maxW, words, Flush(p));
  }

  // ---------------------------------------------------------------------------
  // The greedy rule leaves no choice

  /** A first line shorter than another greedy first line would have had room for one more word. */
  lemma FirstGroupNotShorter(width: string -> real, maxW: real, g1: seq<seq<string>>, g2: seq<seq<string>>)
    requires GreedyGroups(width, maxW, g1) && GreedyGroups(width, maxW, g2)
    requires g1 != [] && g2 != [] && Concat(g1) == Concat(g2)
    ensures |g1[0]| >= |g2[0]|
  {
    var a, b := g1[0], g2[0];
    if |a| < |b| {
      var words := Concat(g1);
      FirstGroupPrefix(g1);
      FirstGroupPrefix(g2);
      if |g1| > 1 {
        assert ClosedBy(width, maxW, g1[0], g1[1]);
        NextWordAt(g1);
        var x := g1[1][0];
        assert words[..|a| + 1] == words[..|a|] + [words[|a|]];
        assert b[..|a| + 1] == words[..|a| + 1];
        assert b[..|a| + 1] == a + [x];
        JoinAppend(a, x);
        GrewFittingPrefix(width, maxW, b, |a| + 1);
      }
    }
  }

  /** The words of a grouping start with those of its first group. */
  lemma FirstGroupPrefix(g: seq<seq<string>>)
    requires g != []
    ensures |g[0]| <= |Concat(g)| && Concat(g)[..|g[0]|] == g[0]
  {
    assert Concat(g) == g[0] + Concat(g[1..]);
  }

  /** The word right after the first group is the first word of the second group. */
  lemma NextWordAt(g: seq<seq<string>>)
    requires |g| >= 2 && g[1] != []
    ensures |g[0]| < |Concat(g)| && Concat(g)[|g[0]|] == g[1][0]
  {
    assert Concat(g) == g[0] + Concat(g[1..]);
    assert Concat(g[1..]) == g[1] + Concat(g[2..]);
  }

  lemma {:induction false} GreedyGroupsUnique(width: string -> real, maxW: real, g1: seq<seq<string>>, g2: seq<seq<string>>)
    requires GreedyGroups(width, maxW, g1) && GreedyGroups(width, maxW, g2)
    requires Concat(g1) == Concat(g2)
    ensures g1 == g2
    decreases |g1|
  {
    if g1 == [] || g2 == [] {
      ConcatLength(g1);
      ConcatLength(g2);
    } else {
      FirstGroupNotShorter(width, maxW, g1, g2);
      FirstGroupNotShorter(width, maxW, g2, g1);
      var words := Concat(g1);
      assert words == g1[0] + Concat(g1[1..]) == g2[0] + Concat(g2[1..]);
      assert g1[0] == words[..|g1[0]|] == g2[0];
      assert Concat(g1[1..]) == words[|g1[0]|..] == Concat(g2[1..]);
      GreedyGroupsUnique(width, maxW, g1[1..], g2[1..]);
      assert g1 == [g1[0]] + g1[1..];
      assert g2 == [g2[0]] + g2[1..];
    }
  }

  /** At most one list of lines is a greedy wrap of given words. */
  lemma GreedyWrapUnique(width: string -> real, maxW: real, words: seq<string>, l1: seq<string>, l2: seq<string>)
    requires IsGreedyWrap(width, maxW, words, l1) && IsGreedyWrap(width, maxW, words, l2)
    ensures l1 == l2
  {
    GreedyGroupsUnique(width, maxW, SplitEach(l1), SplitEach(l2));
  }

  /** `_wrap` returns exactly the greedy wrap of the words of its input, and nothing else is one. */
  lemma WrapCharacterised(text: string, width: string -> real, maxW: real, lines: seq<string>)
    ensures IsGreedyWrap(width, maxW, Split(text), lines) <==> lines == Wrap(text, width, maxW)
  {
    WrapIsGreedy(text, width, maxW);
    if IsGreedyWrap(width, maxW, Split(text), lines) {
      GreedyWrapUnique(width, maxW, Split(text), lines, Wrap(text, width, maxW));
    }
  }

  /** Empty or whitespace-only text wraps to no lines, and only such text does. */
  lemma WrapBlank(text: string, width: string -> real, maxW: real)
    ensures Wrap(text, width, maxW) == [] <==> forall i :: 0 <= i < |text| ==> IsSpace(text[i])
  {
    WrapIsGreedy(text, width, maxW);
    SplitEmptyIffBlank(text);
  }
}

=== FILE: wrappers.dfy ===
/** Failure-carrying values shared by the modules of this model. */
module Wrappers {

  /** An optional value: a JSON field that may be absent, a Python `None`. */
  datatype Option<+T> = None | Some(value: T)

  /** The value of a call, or the reason it raised. */
  datatype Result<+R, +E> = Ok(value: R) | Err(error: E)
}

=== FILE: zones.dfy ===
/**
 * The zones of build-miro-board.py: nine frames laid out left to right,
 * the fill each one gets, the elements a zone builder creates inside its
 * frame, and the sticky-note grids of the landing and critique zones.
 */
module Zones {
  import opened Wrappers
  import opened Grid
  import opened Miro

  // ---------------------------------------------------------------------------
  // Zone layout and fill
  // ---------------------------------------------------------------------------

  const FrameGap: int := 200
  /** The distance between the centres of neighbouring frames. */
  const Step: int := FrameWidth + FrameGap
  /** Nine frames centred on the board origin: the first one four steps to the left. */
  const StartX: int := -4 * Step
  const FillDark: string := "#111111"
  const FillLightZone: string := "#f5f5f5"

  const LandingTitle: string := "Landing Zone"
  const Phase1Title: string := "Phase 1 \U{2014} Framing the Shared Object"
  const Phase2Title: string := "Phase 2 \U{2014} Learning Science Core"
  const Phase3Title: string := "Phase 3 \U{2014} Role Mapping"
  const Phase4Title: string := "Phase 4 \U{2014} Cross-Role Diagnosis"
  const BreakTitle: string := "Break"
  const Phase5Title: string := "Phase 5 \U{2014} Collaborative Redesign"
  const Phase6Title: string := "Phase 6 \U{2014} Cross-Team Critique"
  const Phase7Title: string := "Phase 7 \U{2014} Collaboration Charter"

  /** The zone titles in the order `main` lists them. */
  const ZoneTitles: seq<string> := [
    LandingTitle, Phase1Title, Phase2Title, Phase3Title, Phase4Title,
    BreakTitle, Phase5Title, Phase6Title, Phase7Title
  ]

  /** The x coordinate of the centre of frame `i`; every frame sits at y = 0. */
  function ZoneX(i: nat): int {
    StartX + i * Step
  }

  /**
   * The nine frames are evenly spaced 1800 apart, mirror each other about
   * the origin, and the middle one is centred on it.
   */
  lemma ZoneLayout()
    ensures Step == 1800
    ensures forall i: nat :: i < 8 ==> ZoneX(i + 1) == ZoneX(i) + Step
    ensures forall i: nat :: i < 9 ==> ZoneX(8 - i) == -ZoneX(i)
    ensures ZoneX(4) == 0
  {
  }

  /** Frames are centred on their x, so any two leave at least the gap between them. */
  lemma FramesApart(i: nat, j: nat)
    requires i < j
    ensures ZoneX(j) - ZoneX(i) - FrameWidth >= FrameGap
  {
    assert ZoneX(j) - ZoneX(i) == (j - i) * Step;
  }

  /** `sub` occurs in `s` starting at position `i`. */
  predicate OccursAt(s: string, sub: string, i: nat) {
    i + |sub| <= |s| && s[i..i + |sub|] == sub
  }

  /** Python's `sub in s` for strings. */
  predicate Contains(s: string, sub: string) {
    exists i: nat :: i <= |s| && OccursAt(s, sub, i)
  }

  /** `c` does not occur in `s`. */
  predicate Lacks(c: char, s: string) {
    forall i :: 0 <= i < |s| ==> s[i] != c
  }

  /** A string that lacks the first character of `sub` does not contain `sub`. */
  lemma LacksFirst(s: string, sub: string)
    requires sub != "" && Lacks(sub[0], s)
    ensures !Contains(s, sub)
  {
  }

  /** The frame fill `main` picks: dark for a break, light otherwise. */
  function ZoneFill(title: string): string {
    if Contains(title, "Break") then FillDark else FillLightZone
  }

  lemma EarlyTitlesLackB()
    ensures Lacks('B', LandingTitle) && Lacks('B', Phase1Title)
    ensures Lacks('B', Phase2Title) && Lacks('B', Phase3Title)
  {
  }

  lemma LateTitlesLackB()
    ensures Lacks('B', Phase4Title) && Lacks('B', Phase5Title)
    ensures Lacks('B', Phase6Title) && Lacks('B', Phase7Title)
  {
  }

  /** Exactly one of the nine zones, the break, gets the dark fill. */
  lemma OneDarkZone()
    ensures |ZoneTitles| == 9
    ensures forall i :: 0 <= i < 9 ==> (ZoneFill(ZoneTitles[i]) == FillDark <==> i == 5)
  {
    EarlyTitlesLackB();
    LateTitlesLackB();
    LacksFirst(LandingTitle, "Break");
    LacksFirst(Phase1Title, "Break");
    LacksFirst(Phase2Title, "Break");
    LacksFirst(Phase3Title, "Break");
    LacksFirst(Phase4Title, "Break");
    LacksFirst(Phase5Title, "Break");
    LacksFirst(Phase6Title, "Break");
    LacksFirst(Phase7Title, "Break");
    assert OccursAt(BreakTitle, "Break", 0);
  }

  // ---------------------------------------------------------------------------
  // Elements and the sticky-note grids
  // ---------------------------------------------------------------------------

  /** The arguments of one `create_text`, `create_sticky` or `create_shape` call inside a zone. */
  datatype Element =
    | TextEl(content: string, x: int, y: int, width: int, fontSize: int, color: string,
             textFill: Option<string>)
    | StickyEl(content: string, x: int, y: int, fill: string, width: int)
    | ShapeEl(x: int, y: int, width: int, height: int, fill: string, content: string)

  /**
   * The request for an element placed in the frame `frameId`, the value
   * the builder receives (`None` when the server answered `"id": null`).
   * The element is linked to the frame exactly when that value is truthy.
   */
  function ElementRequest(boardId: string, frameId: Option<string>, e: Element): (r: Request)
    ensures Truthy(frameId) ==> ParentOf(r) == frameId
    ensures !Truthy(frameId) ==> ParentOf(r) == None
    ensures r.path == BoardPath(boardId, match e
      case TextEl(_, _, _, _, _, _, _) => "texts"
      case StickyEl(_, _, _, _, _) => "sticky_notes"
      case ShapeEl(_, _, _, _, _, _) => "shapes")
  {
    match e
    case TextEl(content, x, y, w, size, color, fill) =>
      CreateText(boardId, content, x, y, frameId, w, size, color, fill)
    case StickyEl(content, x, y, fill, w) =>
      CreateSticky(boardId, content, x, y, frameId, fill, w)
    case ShapeEl(x, y, w, h, fill, content) =>
      CreateShape(boardId, x, y, w, h, frameId, fill, content)
  }

  function ElementRequests(boardId: string, frameId: Option<string>, es: seq<Element>): (rs: seq<Request>)
    ensures |rs| == |es|
    ensures forall j :: 0 <= j < |es| ==> rs[j] == ElementRequest(boardId, frameId, es[j])
  {
    seq(|es|, j requires 0 <= j < |es| => ElementRequest(boardId, frameId, es[j]))
  }

  /** Where slot `i` of a grid `cols` wide lands, starting at (x0, y0) with pitches dx and dy. */
  function SlotXY(x0: int, y0: int, dx: int, dy: int, cols: nat, i: nat): (int, int)
    requires cols > 0
  {
    var c := DivMod(i, cols);
    (x0 + c.col * dx, y0 + c.row * dy)
  }

  lemma MulCancel(a: nat, b: nat, k: nat)
    requires k > 0 && a * k == b * k
    ensures a == b
  {
  }

  /**
   * Different slots land on different spots, and two slots of one row are
   * at least a pitch apart horizontally.
   */
  lemma SlotsApart(x0: int, y0: int, dx: int, dy: int, cols: nat, i: nat, j: nat)
    requires cols > 0 && dx > 0 && dy > 0 && i != j
    ensures SlotXY(x0, y0, dx, dy, cols, i) != SlotXY(x0, y0, dx, dy, cols, j)
    ensures DivMod(i, cols).row == DivMod(j, cols).row ==>
      var xi, xj := SlotXY(x0, y0, dx, dy, cols, i).0, SlotXY(x0, y0, dx, dy, cols, j).0;
      xi - xj >= dx || xj - xi >= dx
  {
    var ci, cj := DivMod(i, cols), DivMod(j, cols);
    if SlotXY(x0, y0, dx, dy, cols, i) == SlotXY(x0, y0, dx, dy, cols, j) {
      MulCancel(ci.col, cj.col, dx);
      MulCancel(ci.row, cj.row, dy);
    }
    if ci.row == cj.row {
      if ci.col < cj.col {
        MulMono(ci.col + 1, cj.col, dx);
      } else {
        MulMono(cj.col + 1, ci.col, dx);
      }
    }
  }

  const ColorCurriculum: string := "light_yellow"
  const ColorLearningDesign: string := "light_blue"
  const ColorMultimedia: string := "light_green"
  const ColorLearningTech: string := "orange"
  const RoleColours: seq<string> :=
    [ColorCurriculum, ColorLearningDesign, ColorMultimedia, ColorLearningTech]
  const ParticipantSlots: nat := 16

  /** Participant name slot `i` of the landing zone: a four-wide grid cycling the role colours. */
  function LandingSticky(i: nat): Element {
    var (x, y) := SlotXY(100, 400, 220, 120, 4, i);
    StickyEl("Name", x, y, RoleColours[i % 4], 200)
  }

  const LandingTexts: seq<Element> := [
    TextEl("Designing Learning as a Cross-Functional Activity System", 80, 40, 800, 24, DefaultTextColor, None),
    TextEl("Facilitator: [Your name]\nDate: [Session date]", 80, 120, 400, 12, DefaultTextColor, None),
    TextEl("Zoom out to see the full board. We will move left to right through the phases. "
           + "Start here and wait for the facilitator.", 80, 220, 700, 12, DefaultTextColor, None),
    TextEl("Find your name below (colour = your role). Click your note to confirm you can edit.",
           80, 320, 600, 12, DefaultTextColor, None)
  ]

  /** `build_landing`: four texts, then the sixteen name slots in order. */
  function LandingElements(): seq<Element> {
    LandingTexts + seq(ParticipantSlots, i requires 0 <= i => LandingSticky(i))
  }

  /**
   * The sixteen name slots: four rows of four inside the frame, no two on
   * the same spot nor overlapping along a row, each column one role colour,
   * so every row carries all four roles.
   */
  lemma LandingGrid()
    ensures forall i :: 0 <= i < ParticipantSlots ==>
      var s := LandingSticky(i);
      && s.StickyEl? && s.content == "Name" && s.width == 200
      && s.fill == RoleColours[DivMod(i, 4).col]
      && 100 <= s.x && s.x + s.width <= FrameWidth && 400 <= s.y < FrameHeight
    ensures forall i, j :: 0 <= i < j < ParticipantSlots ==>
      var a, b := LandingSticky(i), LandingSticky(j);
      && (a.x, a.y) != (b.x, b.y)
      && (a.y == b.y ==> a.x + a.width < b.x || b.x + b.width < a.x)
    ensures forall i :: 0 <= i < ParticipantSlots ==> LandingSticky(i).fill == LandingSticky(i % 4).fill
  {
    forall i | 0 <= i < ParticipantSlots
      ensures DivMod(i, 4).row < 4
    {
      DivModRows(i, 4, 4);
    }
    forall i, j | 0 <= i < j < ParticipantSlots
      ensures var a, b := LandingSticky(i), LandingSticky(j);
        && (a.x, a.y) != (b.x, b.y)
        && (a.y == b.y ==> a.x + a.width < b.x || b.x + b.width < a.x)
    {
      SlotsApart(100, 400, 220, 120, 4, i, j);
    }
  }

  const CritiqueColours: seq<string> := ["light_green", "light_yellow", "light_blue"]
  const CritiqueSlots: nat := 12

  /** Critique slot `i` of phase 6: a three-wide grid, the colour chosen by the column. */
  function CritiqueSticky(i: nat): Element {
    var (x, y) := SlotXY(80, 200, 220, 110, 3, i);
    StickyEl("", x, y, CritiqueColours[DivMod(i, 3).col], 200)
  }

  const CritiqueTexts: seq<Element> := [
    TextEl("Phase 6 \U{2014} Cross-Team Critique (Gallery Walk)", 80, 30, 700, 18, DefaultTextColor, None),
    TextEl("Review at least two other teams' Redesign Maps. For each map add:", 80, 80, 800, 12,
           DefaultTextColor, None),
    TextEl("Green \U{2014} Strength: What aligns with learning science? Name the commitment.", 80, 120, 400, 10,
           DefaultTextColor, None),
    TextEl("Yellow \U{2014} Tension: Where might the design impair learning? Name the commitment.", 500, 120,
           400, 10, DefaultTextColor, None),
    TextEl("Blue \U{2014} Clarification question: What needs more explanation?", 80, 160, 400, 10,
           DefaultTextColor, None)
  ]

  /** `build_phase6`: five texts, then the twelve critique slots in order. */
  function Phase6Elements(): seq<Element> {
    CritiqueTexts + seq(CritiqueSlots, i requires 0 <= i => CritiqueSticky(i))
  }

  /**
   * The twelve critique slots: four rows of green, yellow and blue, the
   * colours cycling with the slot number, no two on the same spot nor
   * overlapping along a row, all inside the frame.
   */
  lemma CritiqueGrid()
    ensures forall i :: 0 <= i < CritiqueSlots ==>
      var s := CritiqueSticky(i);
      && s.StickyEl? && s.content == "" && s.width == 200
      && s.fill == CritiqueColours[i % 3]
      && 80 <= s.x && s.x + s.width <= FrameWidth && 200 <= s.y < FrameHeight
    ensures forall i, j :: 0 <= i < j < CritiqueSlots ==>
      var a, b := CritiqueSticky(i), CritiqueSticky(j);
      && (a.x, a.y) != (b.x, b.y)
      && (a.y == b.y ==> a.x + a.width < b.x || b.x + b.width < a.x)
  {
    forall i | 0 <= i < CritiqueSlots
      ensures DivMod(i, 3).row < 4
    {
      DivModRows(i, 4, 3);
    }
    forall i, j | 0 <= i < j < CritiqueSlots
      ensures var a, b := CritiqueSticky(i), CritiqueSticky(j);
        && (a.x, a.y) != (b.x, b.y)
        && (a.y == b.y ==> a.x + a.width < b.x || b.x + b.width < a.x)
    {
      SlotsApart(80, 200, 220, 110, 3, i, j);
    }
  }

  // ---------------------------------------------------------------------------
  // The zones of `main`
  // ---------------------------------------------------------------------------

  /** One zone of the board: its frame title and the elements its builder creates. */
  datatype Zone = Zone(title: string, elements: seq<Element>)

  /**
   * The elements of the zone builders in the order of `main`'s list:
   * landing, phases 1 to 4, break, phase 5, critique, phase 7. The landing
   * and critique builders are modelled in full; the other seven post fixed
   * copy and are given as `others`.
   */
  function ZoneBuilders(others: seq<seq<Element>>): seq<seq<Element>>
    requires |others| == 7
  {
    [LandingElements()] + others[..6] + [Phase6Elements(), others[6]]
  }

  /**
   * The zones of `main`: each title of `ZoneTitles` paired with its
   * builder. The landing zone comes first and the critique zone eighth;
   * the other builders keep their order around them.
   */
  function MainZones(others: seq<seq<Element>>): (zones: seq<Zone>)
    requires |others| == 7
    ensures |zones| == 9
    ensures forall i :: 0 <= i < 9 ==> zones[i].title == ZoneTitles[i]
    ensures zones[0] == Zone(LandingTitle, LandingElements())
    ensures zones[7] == Zone(Phase6Title, Phase6Elements())
    ensures forall j :: 0 <= j < 6 ==> zones[j + 1].elements == others[j]
    ensures zones[8].elements == others[6]
  {
    var builders := ZoneBuilders(others);
    seq(9, i requires 0 <= i < 9 => Zone(ZoneTitles[i], builders[i]))
  }

  /** The frame request for zone `i`. */
  function ZoneFrame(boardId: string, z: Zone, i: nat): Request {
    CreateFrame(boardId, z.title, ZoneX(i), 0, FrameWidth, FrameHeight, Some(ZoneFill(z.title)))
  }

  /** The nine frames go to their slots left to right, only the break dark, at full frame size. */
  lemma MainFrames(boardId: string, others: seq<seq<Element>>, i: nat)
    requires |others| == 7 && i < 9
    ensures var f := ZoneFrame(boardId, MainZones(others)[i], i).body.frame;
      && f.title == ZoneTitles[i]
      && f.position == Position(StartX + i * 1800, 0, None)
      && f.width == 1600 && f.height == 1400
      && (f.fillColor == Some(FillDark) <==> i == 5)
      && (f.fillColor == Some(FillLightZone) <==> i != 5)
  {
    OneDarkZone();
    assert |ZoneTitles[i]| <= TitleLimit;
  }
}
